=== FILE: README.md ===
# Expression evaluator — a Dafny model

This project models the infix calculator `Expression`
(`src/main/java/io/colocasian/math/Expression.java`). The calculator holds two
maps: bound variables, and user formulas keyed by `name#arity`. It evaluates
a text expression in one left-to-right pass:

- **Scan.** A shunting-yard scan (`evaluate`) is driven by five expectation
  flags and a brace depth `lvl`. Its operator stack is seeded with a sentinel
  `'('`. The scan emits a postfix stream of operand markers and operators, and
  a parallel queue of operand values.
- **Calls.** A name followed by `(` is a call. Its arguments are split at the
  commas at depth 1, and each argument is evaluated recursively.
- **Formulas.** `solveFormula` tries the built-in catalog first (`sin#1`,
  `log#2`, `hypot#2`, …), then the user formulas. `solveCustomFormula`
  replaces the placeholders `|i|` in a template by the printed arguments in
  parentheses, and evaluates the result afresh.
- **Postfix machine.** `solvePostfix` runs the postfix stream over the operand
  queue.

The model is one pipeline of pure functions over an explicit context, in these
modules:

| module | what it holds |
|---|---|
| `Outcomes` | the `Result` type and the failure kinds |
| `Numbers` | the abstract number domain |
| `Lexer` | `isNum`, `isVar`, literal and name spans, the identifier check |
| `Decimal` | `Integer.toString` for formula keys |
| `Registry` | `setVariable`, `addFormula` |
| `Builtins` | the built-in catalog of `solveFormula` |
| `Calls` | the argument scan of a call |
| `Templates` | `String.replace` and placeholder substitution |
| `Postfix` | `solvePostfix` and an expression-tree reference semantics |
| `Shunting` | the scan's handlers for braces, operators, operands and the end of input |
| `Discipline` | the stack discipline the scan keeps |
| `Evaluator` | `evaluate`, `solveFormula`, `solveCustomFormula` |
| `Properties` | whole-evaluator properties |
| `Examples` | worked inputs |

The number domain is a type parameter `V` with a record of operations:

- parse and print;
- negation and the binary operators;
- the one-argument `Math` functions and `Math.hypot`.

Every structural property therefore holds whatever the numbers are. The two
exception families of the source are `Error` values of `Result`:

- `ArithmeticException` becomes `Syntax(kind)`, with one kind per check;
- `NoSuchElementException` becomes `Undefined(Variable)` or `Undefined(Function)`.

Three failures the source raises without declaring them are made explicit:

- `EmptyStack` for an operator or the final peek on an empty stack;
- `MalformedNumber` for a literal `Double.parseDouble` rejects;
- `QueueExhausted` for an operand marker with no queued value left (the
  queue's own `NoSuchElementException`). `Evaluate` never reaches it: the
  scan keeps one queued value per operand marker (`Discipline.Inv`), and
  `Properties.EvaluateAtEnd` shows the only failure at the end is
  `EmptyStack`.

Every nested evaluation, whether of a call argument or of a formula body, costs
one unit of `fuel`. When the fuel runs out the result is `OutOfFuel`.

## Model

| member | source | states |
|---|---|---|
| Lexer.IsNum | src/main/java/io/colocasian/math/Expression.java:35-37 | a character belongs to a numeric literal exactly when it is an ASCII digit or `.`; it carries no contract of its own, and `Lexer.NumRunEnd` and `Shunting.Classify` state how the scan uses it |
| Lexer.IsVar | src/main/java/io/colocasian/math/Expression.java:45-47 | a character may start a name exactly when it is an ASCII letter or `_`; it carries no contract of its own, and `Lexer.NameCheck` and `Shunting.Classify` state how the name check and the scan use it |
| Lexer.NumRunEnd | src/main/java/io/colocasian/math/Expression.java:262-264 | the run of `isNum` characters from j is maximal: every character inside satisfies `isNum`, and the one after it (if any) does not |
| Lexer.NameRunEnd | src/main/java/io/colocasian/math/Expression.java:286-291 | the name run is maximal: letters, digits and `_` inside, none right after |
| Lexer.LiteralSpan | src/main/java/io/colocasian/math/Expression.java:262-271 | the literal the scan takes is the longest prefix that has literal shape: a numeric run, optionally `e`/`E`, an optional sign and a second run |
| Lexer.LiteralEnd | src/main/java/io/colocasian/math/Expression.java:262-271 | the literal scan consumes at least the character it starts on and stays within the text; `Lexer.LiteralSpan` states which span it is |
| Lexer.TailValid | src/main/java/io/colocasian/math/Expression.java:130-134 | the loop over the later characters accepts exactly when each one is a letter, a digit or `_` |
| Lexer.NameCheck | src/main/java/io/colocasian/math/Expression.java:129-135 | the name check accepts exactly the well-formed identifiers: non-empty, first character `isVar`, later ones `isVar` or a digit |
| Lexer.ScannedNameIsIdentifier | src/main/java/io/colocasian/math/Expression.java:283-291 | every name the scan reads is an identifier that `setVariable` would accept |
| Lexer.IdentifierScansWhole | src/main/java/io/colocasian/math/Expression.java:286-291 | scanning a whole identifier from its first character consumes all of it |
| Decimal.NatRoundTrip | src/main/java/io/colocasian/math/Expression.java:136 | reading back the decimal digits of a natural number gives the number |
| Decimal.RoundTrip | src/main/java/io/colocasian/math/Expression.java:136 | parsing the text of `Integer.toString(n)` gives n back, negatives included |
| Decimal.Injective | src/main/java/io/colocasian/math/Expression.java:136 | two arities with the same decimal text are equal |
| Decimal.NoSeparators | src/main/java/io/colocasian/math/Expression.java:136 | the decimal text of an arity contains no `#` and no vertical bar |
| Registry.FormulaId | src/main/java/io/colocasian/math/Expression.java:59 | the key `name#arity` under which a formula is looked up (59) and stored (136); it carries no contract of its own, and `Registry.LastSeparator` and `Registry.FormulaIdInjective` state that distinct (name, arity) pairs get distinct keys |
| Registry.LastSeparator | src/main/java/io/colocasian/math/Expression.java:59 | in a formula key, the `#` after the name is the last `#` |
| Registry.FormulaIdInjective | src/main/java/io/colocasian/math/Expression.java:59 | distinct (name, arity) pairs get distinct keys, whatever the names contain |
| Registry.SetVariable | src/main/java/io/colocasian/math/Expression.java:421-430 | reports success exactly for well-formed names; on failure nothing changes; on success only the variable `name` is written, with v, and the formula map is untouched |
| Registry.AddFormula | src/main/java/io/colocasian/math/Expression.java:128-138 | reports success exactly for well-formed names, with any arity and template; on failure nothing changes; on success only the key name#arity is written |
| Registry.OverloadKeepsOtherArities | src/main/java/io/colocasian/math/Expression.java:128-138 | defining (f, a) leaves the entry of (f, a') for every other arity a' as it was |
| Registry.SetVariableIdempotent | src/main/java/io/colocasian/math/Expression.java:421-430 | binding the same name to the same value twice is the same as binding it once |
| Registry.AddFormulaIdempotent | src/main/java/io/colocasian/math/Expression.java:128-138 | defining the same formula twice is the same as defining it once |
| Builtins.Find | src/main/java/io/colocasian/math/Expression.java:60-96 | the switch from entry k on selects nothing exactly when no later catalog key equals the id; otherwise it selects a catalog entry whose key is the id |
| Builtins.BuiltinOf | src/main/java/io/colocasian/math/Expression.java:59-96 | a key selects a built-in exactly when some catalog entry has that key |
| Builtins.BuiltinArity | src/main/java/io/colocasian/math/Expression.java:59-96 | a key selects a built-in only with the built-in's own name and arity, so the built-in always gets as many arguments as it reads |
| Builtins.ApplyBuiltin | src/main/java/io/colocasian/math/Expression.java:61-95 | the value of each built-in: the one-argument `Math` function of its first argument, `log#2` as `log(p0) / log(p1)`, and `hypot#2` of both; it carries no contract of its own, and `Properties.BuiltinShadows` states that a key selecting a built-in answers this value |
| Calls.CallLoopSpec | src/main/java/io/colocasian/math/Expression.java:293-315 | from any point of the call scan, the loop finds a stop list exactly when a matching `)` exists; the list runs from the `(` through the depth-1 commas to the first matching `)` |
| Calls.CallLoop | src/main/java/io/colocasian/math/Expression.java:293-315 | the `while` loop of the call scan: the stops recorded before a turn stay, in order, at the front of the list it finds; `Calls.CallLoopSpec` states what the rest of the list is |
| Calls.CallScan | src/main/java/io/colocasian/math/Expression.java:292-315 | the call scan succeeds exactly when some `)` brings the depth back to 0; it then stops at the first such `)`, and its stops are the `(`, every depth-1 comma in order, and that `)`, strictly increasing |
| Calls.TopCommasBetween | src/main/java/io/colocasian/math/Expression.java:305-307 | the recorded commas are increasing positions of `,` inside the call |
| Calls.StopsOrdered | src/main/java/io/colocasian/math/Expression.java:294-315 | the `(`, the depth-1 commas after it and the closing position are strictly increasing, so every argument text is well defined |
| Calls.CallArity | src/main/java/io/colocasian/math/Expression.java:318 | a call has one argument more than it has depth-1 commas |
| Calls.Arguments | src/main/java/io/colocasian/math/Expression.java:318-322 | there is one argument text per pair of consecutive stops: the text strictly between them |
| Templates.ReplaceAbsent | src/main/java/io/colocasian/math/Expression.java:112-114 | `String.replace` leaves a text without the pattern unchanged |
| Templates.ReplaceAll | src/main/java/io/colocasian/math/Expression.java:113 | `String.replace`: occurrences of the pattern found left to right without overlap are replaced; it carries no contract of its own, and `Templates.InsertsAtFirst` and `Templates.ReplaceAbsent` state its two cases |
| Templates.InsertsAtFirst | src/main/java/io/colocasian/math/Expression.java:113 | `String.replace` puts the replacement where the first occurrence of the pattern starts, keeps the text before it, and carries on after the occurrence |
| Templates.NoOccurrenceAfter | src/main/java/io/colocasian/math/Expression.java:112-114 | a replacement text without a vertical bar creates no occurrence of a placeholder; the replaced placeholder itself is gone afterwards |
| Templates.PlaceholderShape | src/main/java/io/colocasian/math/Expression.java:113 | a placeholder starts with a vertical bar and contains no `(` |
| Templates.SubstituteFromClears | src/main/java/io/colocasian/math/Expression.java:112-114 | when no argument text contains a vertical bar, the substitution loop leaves no argument placeholder in the template |
| Templates.SubstituteClears | src/main/java/io/colocasian/math/Expression.java:111-114 | after the whole loop, no placeholder of an argument (index below the arity) remains, provided the printed arguments contain no vertical bar |
| Templates.SubstituteFromAbsent | src/main/java/io/colocasian/math/Expression.java:112-114 | from argument i on, a template without those placeholders comes out unchanged |
| Templates.SubstituteAbsent | src/main/java/io/colocasian/math/Expression.java:111-114 | a template that mentions no argument placeholder is evaluated as written |
| Templates.SubstituteFrom | src/main/java/io/colocasian/math/Expression.java:112-114 | the `for` loop of solveCustomFormula from argument i on: replace the placeholder of argument i by its text in parentheses, then continue with i + 1; it carries no contract of its own, and `Templates.SubstituteFromFills`, `Templates.SubstituteFromClears` and `Templates.SubstituteFromAbsent` state what it computes |
| Templates.Substitute | src/main/java/io/colocasian/math/Expression.java:112-114 | the whole loop, from argument 0; it carries no contract of its own, and `Templates.SubstituteFills`, `Templates.SubstituteClears` and `Templates.SubstituteAbsent` state what it computes |
| Templates.ReplaceParts | src/main/java/io/colocasian/math/Expression.java:113 | in a template made of literal text and placeholders, replacing the placeholder of argument k turns exactly the parts that are that placeholder into the replacement and leaves every other part as written, when literal parts hold no `|` and a literal right after a placeholder does not open with a digit |
| Templates.SubstituteFromFills | src/main/java/io/colocasian/math/Expression.java:111-114 | the loop from argument i on, over a template whose placeholders below i are gone, puts each later argument's text in parentheses where its placeholder stood, under the same conditions as `Templates.SubstituteFills` |
| Templates.SubstituteFills | src/main/java/io/colocasian/math/Expression.java:111-114 | the loop over all arguments puts each argument's text in parentheses where its placeholder stood, leaves placeholders past the last argument and the literal text as written, when no text holds `|` and no literal right after a placeholder opens with a digit; templates such as `2*|0|` or `3.14*|0|^2` are covered |
| Templates.SquareTemplate | src/main/java/io/colocasian/math/Expression.java:111-114 | `|0|*|0|` with one argument t becomes `(t)*(t)`, for every t |
| Postfix.RunSnoc | src/main/java/io/colocasian/math/Expression.java:153-194 | the machine's loop processes the stream front to back: one more entry is one more step |
| Postfix.Step | src/main/java/io/colocasian/math/Expression.java:150-194 | one turn of the machine's loop: with a queued value left for an operand marker, it succeeds exactly when the height bookkeeping `Grow` allows the entry; it then ends at the height `Grow` gives, leaves the values below the one it writes alone, and an operand marker takes the next queued value; a marker with the queue used up fails as `QueueExhausted`, an operator on too short a stack as `EmptyStack` |
| Postfix.Run | src/main/java/io/colocasian/math/Expression.java:150-194 | the loop, entry by entry, stopping at the first failure; it carries no contract of its own, and `Postfix.RunSnoc`, `Postfix.RunAppend` and `Postfix.ExecFollowsDepth` state what it does |
| Postfix.ExecFollowsDepth | src/main/java/io/colocasian/math/Expression.java:148-197 | with enough queued operands, the machine runs to the end exactly when the stack-height count never goes below what an entry pops; it then holds that many values, and otherwise fails on an empty stack |
| Postfix.SolvePostfix | src/main/java/io/colocasian/math/Expression.java:148-197 | with enough operands, solvePostfix answers exactly when the stream never underflows and leaves at least one value; the answer is the top of the machine's stack; every other failure is an empty stack |
| Postfix.RunAppend | src/main/java/io/colocasian/math/Expression.java:153-194 | running a stream in two parts is running the second part from where the first stopped |
| Postfix.RunTree | src/main/java/io/colocasian/math/Expression.java:155-192 | the postfix form of an expression tree, with its leaves next in the queue, pushes exactly the tree's value (operands FIFO, `@` negates the top, a binary operator pops the right operand first) |
| Postfix.RunNegTree | src/main/java/io/colocasian/math/Expression.java:165-168 | `@` after a subtree's postfix form negates that subtree's value |
| Postfix.RunNodeTree | src/main/java/io/colocasian/math/Expression.java:170-192 | a binary operator after its two operands' postfix forms combines left with right, in that order |
| Postfix.PostfixOfTree | src/main/java/io/colocasian/math/Expression.java:148-197 | solvePostfix computes the value of any expression tree from its postfix form and its leaves |
| Shunting.Classify | src/main/java/io/colocasian/math/Expression.java:226-402 | the scan takes the numeric branch exactly for `isNum` characters, the name branch exactly for `isVar` characters, and skips exactly the blank |
| Shunting.Admits | src/main/java/io/colocasian/math/Expression.java:227-384 | the flag tests that guard each branch (`nxtBro` at 227, `nxtBrc` at 239, `nxtNum` at 260 and 284, `nxt2op` at 344, 355 and 370, `nxt1op` at 384); it is a predicate, and `Properties.ExpectationTable` states its table |
| Shunting.DrainSnoc | src/main/java/io/colocasian/math/Expression.java:242-244 | popping a stack emits its top operator first |
| Shunting.Unwind | src/main/java/io/colocasian/math/Expression.java:242-244 | the `while (peek …) pop` loop, used at 242-244, 357-359, 371-373 and 387-388: it never grows the stack; `Shunting.UnwindPrefix`, `Shunting.UnwindPops` and `Shunting.UnwindEmits` state what it pops and emits |
| Shunting.UnwindPrefix | src/main/java/io/colocasian/math/Expression.java:242-244 | a popping loop only removes slots from the top: what is left is a prefix of the stack |
| Shunting.UnwindPops | src/main/java/io/colocasian/math/Expression.java:242-244 | every popped slot is an operator the loop's rule takes, and the loop stops at the first slot the rule does not take, or at the bottom |
| Shunting.UnwindEmits | src/main/java/io/colocasian/math/Expression.java:242-244 | the popped operators are appended to the postfix stream top first |
| Shunting.OpenBrace | src/main/java/io/colocasian/math/Expression.java:226-237 | an opening brace is refused unless expected; otherwise it is pushed, lvl goes up by one, and a new group starts |
| Shunting.CloseBrace | src/main/java/io/colocasian/math/Expression.java:238-258 | a closing brace is refused unless expected; otherwise it pops every operator down to the nearest brace, and fails with a bracket mismatch unless that brace is of its kind; on success lvl goes down by one and only an operator or a closing brace may follow |
| Shunting.PopThenPush | src/main/java/io/colocasian/math/Expression.java:354-382 | a binary operator pops the run of slots at the top of the stack that its rule takes, appending their operators to the postfix stream top first, and is pushed on the first slot the rule does not take; when the rule takes every slot the stack runs empty and the peek fails; afterwards an operand is expected |
| Shunting.PopRules | src/main/java/io/colocasian/math/Expression.java:354-391 | which operators each popping loop takes: every operator for binary `+` and `-` (371-373) and for a closing brace (242-244), `^ @ * /` for `*` and `/` (357-359), only `^` for a prefix `-` (387-388) |
| Shunting.Operator | src/main/java/io/colocasian/math/Expression.java:342-400 | an operator character is refused unless expected; `^` pushes without popping; `*` and `/` pop under the product rule, binary `+` and `-` pop everything; a prefix `+` changes only the flags, a prefix `-` pops under the power rule and pushes `@`; every accepted operator leaves the scan expecting an operand |
| Shunting.PushOperand | src/main/java/io/colocasian/math/Expression.java:273-282 | a number, variable or call appends exactly one operand marker and one queued value; afterwards the flags admit an operator, a space, or a closing brace when a brace is open, and nothing else |
| Shunting.Flush | src/main/java/io/colocasian/math/Expression.java:407-408 | the end-of-input flush fails exactly when no `(` is left on the stack, and then on the empty stack |
| Shunting.FlushDrains | src/main/java/io/colocasian/math/Expression.java:407-408 | above the sentinel, the flush emits every pending operator top first |
| Shunting.Finish | src/main/java/io/colocasian/math/Expression.java:404-405 | a scan that ends with braces open is refused as unbalanced |
| Discipline.InitialInv | src/main/java/io/colocasian/math/Expression.java:211-221 | the starting state (sentinel `(` alone, group-start flags, lvl 0) satisfies the scan invariant |
| Discipline.OrderedPrefix | src/main/java/io/colocasian/math/Expression.java:242-244 | popping keeps the stack's operators ordered by binding strength |
| Discipline.UnwindKeeps | src/main/java/io/colocasian/math/Expression.java:242-244 | a popping loop keeps the brace count and the operand count, and each popped binary operator merges two machine values into one |
| Discipline.UnwindShape | src/main/java/io/colocasian/math/Expression.java:211-212 | no popping loop removes the sentinel at the bottom of the stack |
| Discipline.UnaryMinusPopsNothing | src/main/java/io/colocasian/math/Expression.java:383-398 | when a prefix `-` is accepted a brace is on top of the stack, so its `^` popping loop pops nothing |
| Discipline.OpenBraceKeeps | src/main/java/io/colocasian/math/Expression.java:226-237 | an expected opening brace succeeds and keeps the scan invariant |
| Discipline.ClosedGroupKeeps | src/main/java/io/colocasian/math/Expression.java:249-257 | dropping the matched brace after the pops leaves a state that satisfies the invariant, with lvl one lower |
| Discipline.UnwindForClose | src/main/java/io/colocasian/math/Expression.java:238-245 | an expected closing brace pops down to a brace that is not the sentinel, since lvl is positive |
| Discipline.CloseBraceOutcome | src/main/java/io/colocasian/math/Expression.java:238-258 | an expected closing brace either succeeds or fails only with a bracket mismatch: it never underflows the stack |
| Discipline.CloseBraceKeeps | src/main/java/io/colocasian/math/Expression.java:238-258 | a successful closing brace keeps the scan invariant, so lvl still counts the braces above the sentinel |
| Discipline.PushedKeeps | src/main/java/io/colocasian/math/Expression.java:354-382 | pushing a binary operator that binds tighter than the slot it lands on keeps the invariant |
| Discipline.PopThenPushKeeps | src/main/java/io/colocasian/math/Expression.java:354-382 | a binary operator whose rule pops every operator that binds at least as tightly succeeds and keeps the invariant |
| Discipline.UnwindForPush | src/main/java/io/colocasian/math/Expression.java:354-382 | after an operand, a popping loop leaves the sentinel, lvl, the ordering and the operand count intact, and stops at a slot the rule does not take |
| Discipline.StopMayFollow | src/main/java/io/colocasian/math/Expression.java:354-382 | the slot the popping loop stops at binds less tightly than the operator pushed on it |
| Discipline.CaretKeeps | src/main/java/io/colocasian/math/Expression.java:343-353 | pushing `^` without popping keeps the invariant |
| Discipline.PrefixKeeps | src/main/java/io/colocasian/math/Expression.java:383-398 | an accepted prefix sign succeeds and keeps the invariant |
| Discipline.OperatorKeeps | src/main/java/io/colocasian/math/Expression.java:342-400 | every operator the flags accept succeeds and keeps the invariant |
| Discipline.PushOperandKeeps | src/main/java/io/colocasian/math/Expression.java:259-341 | an operand read where one is expected keeps the invariant |
| Discipline.FlushBalanced | src/main/java/io/colocasian/math/Expression.java:407-408 | after an operand at depth 0, the flushed stream leaves exactly one value on the machine and uses every queued operand |
| Discipline.FlushDangling | src/main/java/io/colocasian/math/Expression.java:407-408 | when the input ends in an operator or sign, the flushed stream underflows or leaves no value |
| Discipline.FinishAtLevelZero | src/main/java/io/colocasian/math/Expression.java:404-410 | with every brace closed, the end of the scan succeeds exactly when the input ended after an operand; the machine then ends with one value and has used the whole queue; otherwise it fails on the empty stack |
| Evaluator.Evaluate | src/main/java/io/colocasian/math/Expression.java:207-209 | a blank expression is refused as empty input |
| Evaluator.ScanFrom | src/main/java/io/colocasian/math/Expression.java:223-403 | the scan's `for` loop: one turn per token, left to right, stopping at the first failure; it carries no contract of its own, and `Properties.ScanKeepsInv` states the invariant it keeps over any input |
| Evaluator.Token | src/main/java/io/colocasian/math/Expression.java:222-402 | each turn of the scan consumes at least one character, and a character the flags do not expect is refused with the syntax error of its class |
| Evaluator.LiteralOperand | src/main/java/io/colocasian/math/Expression.java:259-275 | a literal's value is the parse of its maximal span; a span the parser rejects is a malformed number |
| Evaluator.NamedOperand | src/main/java/io/colocasian/math/Expression.java:283-341 | a name not followed by `(` answers the bound value, or fails as an undefined variable, and ends after the name; a name followed by `(` is a call of that name |
| Evaluator.CallOperand | src/main/java/io/colocasian/math/Expression.java:292-327 | a call without a matching `)` is unclosed; with no fuel left it is out of fuel; a successful call ends right after the closing parenthesis the call scan found |
| Evaluator.EvalArgs | src/main/java/io/colocasian/math/Expression.java:321-322 | the arguments succeed exactly when each one evaluates, with one value per argument in order; a failure is the failure of the first argument that fails |
| Evaluator.SolveFormula | src/main/java/io/colocasian/math/Expression.java:58-103 | a key that selects a built-in always succeeds; a key found neither among the built-ins nor among the user formulas is an undefined function |
| Evaluator.SolveCustom | src/main/java/io/colocasian/math/Expression.java:111-116 | solveCustomFormula: the substituted template evaluated afresh; it carries no contract of its own, and `Properties.DefinedFormulaIsUsed`, `Properties.FormulaFillsArguments` and `Properties.SubstitutedBody` state what it evaluates |
| Properties.ExpectationTable | src/main/java/io/colocasian/math/Expression.java:216-221 | after an operand only an operator, or a closing brace when lvl > 0, is accepted; after an operator only an operand or an opening brace; a sign only at a group start |
| Properties.TokenMoves | src/main/java/io/colocasian/math/Expression.java:222-402 | a successful turn of the scan moves the state as the handler of its character class does, and a stray character never succeeds |
| Properties.TokenKeepsInv | src/main/java/io/colocasian/math/Expression.java:222-402 | every successful turn of the scan keeps the invariant |
| Properties.ScanKeepsInv | src/main/java/io/colocasian/math/Expression.java:222-403 | the whole scan keeps the invariant on any input, so lvl always counts the open braces and the queue matches the operand markers |
| Properties.EvaluateAtEnd | src/main/java/io/colocasian/math/Expression.java:404-410 | an input whose braces balance evaluates exactly when it ends after an operand, and then the machine never underflows and ends with one value; one that ends in an operator or sign fails on the empty stack |
| Properties.UnbalancedIsRefused | src/main/java/io/colocasian/math/Expression.java:404-405 | a scan that ends with braces open is refused as unbalanced |
| Properties.CallEvaluatesArguments | src/main/java/io/colocasian/math/Expression.java:318-326 | a closed call evaluates the argument texts between its stops, with one unit of fuel less; the first failing argument aborts the call, otherwise solveFormula gets the values in order and its failure is the call's, and its value ends the call after the `)` |
| Properties.BindThenEvaluate | src/main/java/io/colocasian/math/Expression.java:328-334 | after a successful setVariable, evaluating the name alone answers the bound value |
| Properties.UnboundName | src/main/java/io/colocasian/math/Expression.java:328-334 | an identifier with no binding, and no call after it, is an undefined variable |
| Properties.BuiltinShadows | src/main/java/io/colocasian/math/Expression.java:59-101 | a user formula stored under a built-in's key is never used: the built-in answers |
| Properties.DefinedFormulaIsUsed | src/main/java/io/colocasian/math/Expression.java:97-116 | a formula defined with addFormula under a key no built-in uses is solved by substituting the printed arguments and evaluating the result |
| Properties.FormulaFillsArguments | src/main/java/io/colocasian/math/Expression.java:111-116 | a formula defined with `addFormula` under a key no built-in uses, whose template is literal text and placeholders, is evaluated with each argument's printed value, in parentheses, where its placeholder stood, under the conditions of `Templates.SubstituteFills` |
| Properties.SubstitutedBody | src/main/java/io/colocasian/math/Expression.java:111-116 | the body that gets evaluated holds no argument placeholder when the printed arguments hold no vertical bar, and is the template itself when the template has no placeholder |
| Examples.EvaluateAsTree | src/main/java/io/colocasian/math/Expression.java:207-411 | an input whose scan compiles it to the postfix form of a tree evaluates to the tree's value |
| Examples.BlankScanQueuesNothing | src/main/java/io/colocasian/math/Expression.java:401-402 | a scan over text whose characters are all at most U+0020 queues no operand, since only the space is skipped and every other such character is refused; so the blank-input refusal (208-209) never hides a value |
| Examples.PowerIsRightAssociative | src/main/java/io/colocasian/math/Expression.java:343-353 | `2^3^2` is 2^(3^2) |
| Examples.PowersCompile | src/main/java/io/colocasian/math/Expression.java:343-353 | `2^3^2` compiles to `2 3 2 ^ ^`: `^` pushes without popping |
| Examples.DifferenceIsLeftAssociative | src/main/java/io/colocasian/math/Expression.java:370-382 | `2-3-2` is (2-3)-2 |
| Examples.SecondDifference | src/main/java/io/colocasian/math/Expression.java:370-382 | the second binary `-` pops the first and takes its place |
| Examples.ProductBindsTighter | src/main/java/io/colocasian/math/Expression.java:354-382 | `2+3*2` is 2+(3*2) |
| Examples.SignAppliesAfterPower | src/main/java/io/colocasian/math/Expression.java:383-398 | `-2^2` compiles to `2 2 ^ @` and is -(2^2) |
| Examples.SignAfterOperator | src/main/java/io/colocasian/math/Expression.java:377-397 | `2*-3` is a syntax error: a sign is accepted only at a group start |
| Examples.DoubleSign | src/main/java/io/colocasian/math/Expression.java:383-398 | `--3` is a syntax error |
| Examples.TrailingOperator | src/main/java/io/colocasian/math/Expression.java:404-410 | `2+` passes every scan check and fails on the machine's empty stack |
| Examples.MismatchedBrackets | src/main/java/io/colocasian/math/Expression.java:238-258 | `(2+3]` is a bracket mismatch |
| Examples.ClosingMeetsSquare | src/main/java/io/colocasian/math/Expression.java:242-248 | the `]` of `(2+3]` pops the `+` and then meets a `(` |
| Examples.EmptyCallScan | src/main/java/io/colocasian/math/Expression.java:292-322 | the call scan of `f()` yields one argument, the empty text |
| Examples.EmptyCallIsRefused | src/main/java/io/colocasian/math/Expression.java:207-209 | `f()` is refused as empty input, whatever `f` is, because its single empty argument is blank |
| Examples.SquareFormula | src/main/java/io/colocasian/math/Expression.java:111-138 | after `addFormula("f", 1, "|0|*|0|")`, solving `f` at v evaluates the printed v, in parentheses, squared |
| Examples.LeadingNumberTemplate | src/main/java/io/colocasian/math/Expression.java:111-116 | `2*|0|` with one argument t becomes `2*(t)` when t holds no vertical bar: a literal that opens with a digit is filled like any other |
| Examples.OverlappingPlaceholders | src/main/java/io/colocasian/math/Expression.java:111-116 | in `|1|0|` with two arguments the placeholder `|0|` is found first and takes the bar that closes `|1|`, so the second argument never appears: the result is `|1(a)` |

## Left out

- The floating-point domain. `Double.parseDouble`, `Double.toString`, the `Math` functions and IEEE-754 arithmetic (infinities, NaN, rounding) are parameters of the model: the `parse`, `show`, `unary`, `hypot` and operator fields of `Numbers.Numerics`. Only the order of dispatch and the structure of the computation are modelled.
- Unbounded recursion. A self-referential formula makes the source recurse until the Java stack overflows. The model bounds nested evaluations by `fuel` and answers `OutOfFuel` when it runs out.
- Exception messages. Only the kind of failure is modelled, not the message text.
- `NumberFormatException` from `Double.parseDouble` on spans such as `1.2.3` or `1e` is the failure `MalformedNumber`. Whether a span parses is up to the abstract `parse`.
- Java integer width. `lvl`, the call depth and the arity are unbounded integers. Overflowing them would need more than 2^31 nested braces or arguments.
- Java collections. `HashMap`, `Stack` and `LinkedList` are Dafny maps and sequences.
- Shunting.Flush: the source's end-of-input loop also copies any `[` or `{` it passes to the postfix stream, where the machine ignores them. The model skips them instead. No state that satisfies the scan invariant at depth 0 holds such a brace.
- Evaluator.SolveFormula: states when the formula succeeds, not the numeric value of each built-in, since the `Math` functions are abstract. The value is `ApplyBuiltin`, and `Properties.BuiltinShadows` states it.
- Evaluator.Evaluate: its own contract covers only the blank check. The success and failure conditions of the rest are the lemmas `Properties.EvaluateAtEnd`, `Properties.UnbalancedIsRefused` and `Properties.ExpectationTable`.
- Templates.SubstituteFills: describes the filled template only when no argument text holds `|` and no literal right after a placeholder opens with a digit (a literal elsewhere, as in `2*|0|`, may). Otherwise an earlier placeholder can take the closing bar of a later one, as `Examples.OverlappingPlaceholders` shows, and the result depends on the order of replacement.
- Evaluator.ScanFrom, Evaluator.SolveCustom, Postfix.Run, Templates.ReplaceAll, Templates.SubstituteFrom, Templates.Substitute, Lexer.IsNum, Lexer.IsVar, Builtins.ApplyBuiltin and Registry.FormulaId carry no contract of their own. The lemmas named in their rows state what they compute.

=== FILE: builtins.dfy ===
/** The built-in function catalog of solveFormula
    (src/main/java/io/colocasian/math/Expression.java:59-96): each entry is
    matched by its key name#arity before any user formula is consulted. */
module Builtins {
  import opened Outcomes
  import opened Numbers
  import opened Registry

  /** What a built-in computes: a one-argument Math function, the logarithm
      of its first argument to the base of its second, or Math.hypot. */
  datatype Builtin = Unary(fn: UnaryFn) | LogBase | Hypot

  function Arity(b: Builtin): nat {
    match b
    case Unary(_) => 1
    case LogBase => 2
    case Hypot => 2
  }

  /** The catalog in the order of the source's switch. */
  const Catalog: seq<(string, Builtin)> := [
    ("sin", Unary(Sin)), ("cos", Unary(Cos)), ("tan", Unary(Tan)),
    ("asin", Unary(Asin)), ("acos", Unary(Acos)), ("atan", Unary(Atan)),
    ("exp", Unary(Exp)), ("expm1", Unary(Expm1)), ("log", Unary(Log)),
    ("log10", Unary(Log10)), ("log1p", Unary(Log1p)), ("log", LogBase),
    ("sqrt", Unary(Sqrt)), ("cbrt", Unary(Cbrt)), ("hypot", Hypot),
    ("signum", Unary(Signum))
  ]

  /** The key of catalog entry x. */
  function Key(x: nat): string
    requires x < |Catalog|
  {
    FormulaId(Catalog[x].0, Arity(Catalog[x].1))
  }

  function Find(id: string, k: nat): (r: Option<Builtin>)
    requires k <= |Catalog|
    ensures r.None? <==> forall x :: k <= x < |Catalog| ==> Key(x) != id
    ensures r.Some? ==> exists x :: k <= x < |Catalog| && Key(x) == id && Catalog[x].1 == r.value
    decreases |Catalog| - k
  {
    if k == |Catalog| then None
    else if Key(k) == id then Some(Catalog[k].1)
    else Find(id, k + 1)
  }

  /** The built-in a formula key selects, if any. */
  function BuiltinOf(id: string): (r: Option<Builtin>)
    ensures r.None? <==> forall x :: 0 <= x < |Catalog| ==> Key(x) != id
    ensures r.Some? ==> exists x :: 0 <= x < |Catalog| && Key(x) == id && Catalog[x].1 == r.value
  {
    Find(id, 0)
  }

  /** A key selects a built-in only with the built-in's own name and arity,
      so the built-in always gets the number of arguments it reads. */
  lemma BuiltinArity(name: string, n: int, b: Builtin)
    requires BuiltinOf(FormulaId(name, n)) == Some(b)
    ensures Arity(b) == n
    ensures exists x :: 0 <= x < |Catalog| && Catalog[x] == (name, b)
  {
    var x :| 0 <= x < |Catalog| && Key(x) == FormulaId(name, n) && Catalog[x].1 == b;
    FormulaIdInjective(Catalog[x].0, Arity(Catalog[x].1), name, n);
  }

  /** The value a built-in computes from its arguments. */
  function ApplyBuiltin<V>(num: Numerics<V>, b: Builtin, params: seq<V>): V
    requires |params| == Arity(b)
  {
    match b
    case Unary(f) => num.unary(f, params[0])
    case LogBase => num.div(num.unary(Log, params[0]), num.unary(Log, params[1]))
    case Hypot => num.hypot(params[0], params[1])
  }
}

=== FILE: calls.dfy ===
/** The argument scan of a function call
    (src/main/java/io/colocasian/math/Expression.java:292-322): from the
    '(' after a name it tracks only '(' and ')' depth, records the commas at
    depth 1, and stops at the ')' that returns to depth 0. */
module Calls {
  import opened Outcomes

  /** '(' minus ')' in s[a..b]. */
  function Balance(s: string, a: nat, b: nat): int
    requires a <= b <= |s|
    decreases b - a
  {
    if a == b then 0
    else Balance(s, a, b - 1) + (if s[b - 1] == '(' then 1 else if s[b - 1] == ')' then -1 else 0)
  }

  /** Position p holds a ')' that closes the '(' at j. */
  predicate ClosesCall(s: string, j: nat, p: nat)
    requires j < p < |s|
  {
    s[p] == ')' && Balance(s, j + 1, p) == 0
  }

  /** The commas between j and k that are at depth 1, in order. */
  function TopCommas(s: string, j: nat, k: nat): seq<nat>
    requires j < k <= |s|
    decreases k
  {
    if k == j + 1 then []
    else TopCommas(s, j, k - 1) + (if s[k - 1] == ',' && Balance(s, j + 1, k - 1) == 0 then [k - 1] else [])
  }

  /** The scan loop at position k and depth lvl, with the stops found so far. */
  function CallLoop(s: string, k: nat, lvl: nat, stops: seq<nat>): (r: Option<seq<nat>>)
    requires 1 <= k <= |s|
    ensures r.Some? ==> |r.value| > |stops| && r.value[..|stops|] == stops
    decreases |s| - k
  {
    if k == |s| || lvl == 0 then
      if lvl != 0 then None else Some(stops + [k - 1])
    else if s[k] == '(' then CallLoop(s, k + 1, lvl + 1, stops)
    else if s[k] == ')' then CallLoop(s, k + 1, lvl - 1, stops)
    else if s[k] == ',' && lvl == 1 then CallLoop(s, k + 1, lvl, stops + [k])
    else CallLoop(s, k + 1, lvl, stops)
  }

  lemma {:induction false} CallLoopSpec(s: string, j: nat, k: nat, lvl: nat, stops: seq<nat>)
    requires j < k <= |s| && lvl >= 1 && lvl == 1 + Balance(s, j + 1, k)
    requires stops == [j] + TopCommas(s, j, k)
    requires forall p :: j < p < k ==> !ClosesCall(s, j, p)
    ensures CallLoop(s, k, lvl, stops).Some? <==> exists p :: j < p < |s| && ClosesCall(s, j, p)
    ensures CallLoop(s, k, lvl, stops).Some? ==>
              var r := CallLoop(s, k, lvl, stops).value;
              var e := r[|r| - 1];
              && j < e < |s| && ClosesCall(s, j, e)
              && (forall p :: j < p < e ==> !ClosesCall(s, j, p))
              && r == [j] + TopCommas(s, j, e) + [e]
    decreases |s| - k
  {
    if k < |s| {
      var c := s[k];
      assert Balance(s, j + 1, k + 1) == Balance(s, j + 1, k) + (if c == '(' then 1 else if c == ')' then -1 else 0);
      if c == ')' && lvl == 1 {
        assert ClosesCall(s, j, k);
        assert CallLoop(s, k, lvl, stops) == CallLoop(s, k + 1, 0, stops);
      } else {
        var stops' := if c == ',' && lvl == 1 then stops + [k] else stops;
        var lvl' := if c == '(' then lvl + 1 else if c == ')' then lvl - 1 else lvl;
        assert CallLoop(s, k, lvl, stops) == CallLoop(s, k + 1, lvl', stops');
        CallLoopSpec(s, j, k + 1, lvl', stops');
      }
    }
  }

  /** The call scan started at the '(' at j: the positions of that '(', of
      every depth-1 comma, and of the matching ')', or None when no ')'
      returns the depth to 0 before the end of the input. */
  function CallScan(s: string, j: nat): (r: Option<seq<nat>>)
    requires j < |s| && s[j] == '('
    ensures r.Some? <==> exists p :: j < p < |s| && ClosesCall(s, j, p)
    ensures r.Some? ==> |r.value| >= 2
    ensures r.Some? ==>
              var e := r.value[|r.value| - 1];
              && j < e < |s| && ClosesCall(s, j, e)
              && (forall p :: j < p < e ==> !ClosesCall(s, j, p))
              && r.value == [j] + TopCommas(s, j, e) + [e]
    ensures r.Some? ==> Increasing(r.value) && r.value[|r.value| - 1] < |s|
  {
    CallLoopSpec(s, j, j + 1, 1, [j]);
    var r := CallLoop(s, j + 1, 1, [j]);
    if r.None? then r
    else
      StopsOrdered(s, j, r.value[|r.value| - 1]);
      r
  }

  /** Strictly increasing positions. */
  predicate Increasing(xs: seq<nat>) {
    forall a, b :: 0 <= a < b < |xs| ==> xs[a] < xs[b]
  }

  lemma {:induction false} TopCommasBetween(s: string, j: nat, k: nat)
    requires j < k <= |s|
    ensures Increasing(TopCommas(s, j, k))
    ensures forall x :: x in TopCommas(s, j, k) ==> j < x < k && s[x] == ','
    decreases k
  {
    if k > j + 1 {
      TopCommasBetween(s, j, k - 1);
      var xs := TopCommas(s, j, k - 1);
      if s[k - 1] == ',' && Balance(s, j + 1, k - 1) == 0 {
        var ys := xs + [k - 1];
        forall a, b | 0 <= a < b < |ys|
          ensures ys[a] < ys[b]
        {
          assert ys[a] == xs[a] && xs[a] in xs;
        }
      }
    }
  }

  /** The '(' at j, the depth-1 commas after it, and a later position e
      are strictly increasing. */
  lemma StopsOrdered(s: string, j: nat, e: nat)
    requires j < e < |s|
    ensures Increasing([j] + TopCommas(s, j, e) + [e])
  {
    var stops := [j] + TopCommas(s, j, e) + [e];
    TopCommasBetween(s, j, e);
    var cs := TopCommas(s, j, e);
    forall a, b | 0 <= a < b < |stops|
      ensures stops[a] < stops[b]
    {
      if a > 0 && b < |stops| - 1 {
        assert stops[a] == cs[a - 1] && stops[b] == cs[b - 1];
      } else if a > 0 {
        assert stops[a] == cs[a - 1] && cs[a - 1] in cs;
      } else if b < |stops| - 1 {
        assert stops[b] == cs[b - 1] && cs[b - 1] in cs;
      }
    }
  }

  /** A call has one argument more than it has depth-1 commas. */
  lemma CallArity(s: string, j: nat)
    requires j < |s| && s[j] == '(' && CallScan(s, j).Some?
    ensures var stops := CallScan(s, j).value;
            |Arguments(s, stops)| == |TopCommas(s, j, stops[|stops| - 1])| + 1
  {
  }

  /** The argument texts: what lies strictly between consecutive stops. */
  function Arguments(s: string, stops: seq<nat>): (r: seq<string>)
    requires |stops| >= 1 && Increasing(stops) && stops[|stops| - 1] < |s|
    ensures |r| == |stops| - 1
    ensures forall l :: 0 <= l < |r| ==> r[l] == s[stops[l] + 1..stops[l + 1]]
    decreases |stops|
  {
    if |stops| == 1 then []
    else
      var rest := Arguments(s, stops[1..]);
      [s[stops[0] + 1..stops[1]]] + rest
  }
}

=== FILE: decimal.dfy ===
/** Decimal text of integers, as Integer.toString writes it, with its
    inverse.  Formula keys and placeholders embed an arity or a parameter
    index in this form (src/main/java/io/colocasian/math/Expression.java,
    addFormula, solveFormula and solveCustomFormula). */
module Decimal {

  predicate IsDigit(c: char) {
    '0' <= c <= '9'
  }

  predicate AllDigits(s: string) {
    forall k :: 0 <= k < |s| ==> IsDigit(s[k])
  }

  /** The shape Integer.toString produces: digits, optionally after a '-'. */
  predicate IsDecimal(s: string) {
    if |s| > 0 && s[0] == '-' then |s| > 1 && AllDigits(s[1..]) else |s| > 0 && AllDigits(s)
  }

  function DigitChar(d: nat): (c: char)
    requires d < 10
    ensures IsDigit(c)
  {
    (('0' as int) + d) as char
  }

  function DigitValue(c: char): (d: nat)
    requires IsDigit(c)
    ensures d < 10
  {
    (c as int) - ('0' as int)
  }

  /** Decimal digits of n, most significant first, without leading zeros. */
  function NatToString(n: nat): (r: string)
    ensures |r| > 0 && AllDigits(r)
    decreases n
  {
    if n < 10 then [DigitChar(n)] else NatToString(n / 10) + [DigitChar(n % 10)]
  }

  /** Integer.toString: a '-' in front of the digits of a negative number. */
  function IntToString(n: int): (r: string)
    ensures IsDecimal(r)
  {
    if n < 0 then "-" + NatToString(-n) else NatToString(n)
  }

  /** The value of a string of decimal digits. */
  function DigitsValue(s: string): nat
    requires AllDigits(s)
    decreases |s|
  {
    if s == [] then 0 else DigitsValue(s[..|s| - 1]) * 10 + DigitValue(s[|s| - 1])
  }

  /** Reads back what IntToString writes. */
  function ParseInt(s: string): int
    requires IsDecimal(s)
  {
    if s[0] == '-' then 0 - DigitsValue(s[1..]) else DigitsValue(s)
  }

  lemma {:induction false} NatRoundTrip(n: nat)
    ensures DigitsValue(NatToString(n)) == n
    decreases n
  {
    if n >= 10 {
      var p := NatToString(n / 10);
      var r := NatToString(n);
      assert r[..|r| - 1] == p;
      NatRoundTrip(n / 10);
    }
  }

  /** Reading back the decimal text of n gives n. */
  lemma RoundTrip(n: int)
    ensures ParseInt(IntToString(n)) == n
  {
    if n < 0 {
      assert IntToString(n)[1..] == NatToString(-n);
      NatRoundTrip(-n);
    } else {
      NatRoundTrip(n);
    }
  }

  /** Distinct integers have distinct decimal texts. */
  lemma Injective(a: int, b: int)
    requires IntToString(a) == IntToString(b)
    ensures a == b
  {
    RoundTrip(a);
    RoundTrip(b);
  }

  /** The decimal text holds neither the key separator '#' nor the
      placeholder delimiter '|'. */
  lemma NoSeparators(n: int)
    ensures '#' !in IntToString(n) && '|' !in IntToString(n)
  {
    var r := IntToString(n);
    if n < 0 {
      assert forall k :: 1 <= k < |r| ==> IsDigit(r[k]) by {
        assert forall k :: 1 <= k < |r| ==> r[k] == r[1..][k - 1];
      }
    }
  }
}

=== FILE: discipline.dfy ===
/** The stack discipline of the shunting-yard scan
    (src/main/java/io/colocasian/math/Expression.java:207-411): an invariant
    every reachable scan state keeps, proved step by step, and what it
    implies at the end of the input. */
module Discipline {
  import opened Outcomes
  import opened Numbers
  import opened Postfix
  import opened Shunting

  /** Number of opening braces in a stack slice. */
  function Opens(s: seq<Slot>): nat
    decreases |s|
  {
    if s == [] then 0 else Opens(s[..|s| - 1]) + (if s[|s| - 1].Opening? then 1 else 0)
  }

  /** Number of pending binary operators in a stack slice. */
  function Bins(s: seq<Slot>): nat
    decreases |s|
  {
    if s == [] then 0 else Bins(s[..|s| - 1]) + (if s[|s| - 1].Pending? && s[|s| - 1].op.Binary? then 1 else 0)
  }

  /** Binding strength: '+' '-' < '*' '/' < prefix '-' < '^'. */
  function Rank(op: Op): nat {
    match op
    case Binary(Add) => 1
    case Binary(Sub) => 1
    case Binary(Mul) => 2
    case Binary(Div) => 2
    case Negate => 3
    case Binary(Pow) => 4
  }

  /** An operator sits directly on another only if it binds strictly
      tighter, or both are '^' (which associates to the right). */
  predicate MayFollow(below: Slot, above: Slot) {
    below.Pending? && above.Pending? ==>
      Rank(below.op) < Rank(above.op) || (below.op == Binary(Pow) && above.op == Binary(Pow))
  }

  predicate Ordered(s: seq<Slot>) {
    forall k :: 0 < k < |s| ==> MayFollow(s[k - 1], s[k])
  }

  /** What holds of every state the scan reaches:
      - the '(' sentinel stays at the bottom of the stack;
      - lvl counts the opening braces above it;
      - the flags take one of three shapes, and a group start has a brace on top;
      - pending operators are ordered by binding strength;
      - one queued value per operand marker;
      - the machine would hold one value per pending binary operator, plus
        the operand just read. */
  predicate Inv<V>(st: Scan<V>) {
    && |st.stack| >= 1 && st.stack[0] == Opening(Round)
    && st.lvl == Opens(st.stack) - 1
    && (st.flags == GroupStart || st.flags == AfterOperator || st.flags == AfterOperand(st.lvl))
    && (st.flags == GroupStart ==> st.stack[|st.stack| - 1].Opening?)
    && Ordered(st.stack)
    && Operands(st.postfix) == |st.queue|
    && Depth(st.postfix) == Some(Bins(st.stack) + (if st.flags.binary then 1 else 0))
  }

  lemma InitialInv<V>()
    ensures Inv(Initial<V>())
  {
    assert [Opening(Round)][..0] == [];
  }

  /** A stack whose bottom slot is an opening brace counts at least one. */
  lemma {:induction false} OpensPositive(s: seq<Slot>)
    requires |s| >= 1 && s[0].Opening?
    ensures Opens(s) >= 1
    decreases |s|
  {
    if |s| > 1 {
      OpensPositive(s[..|s| - 1]);
    }
  }

  lemma SnocEmit(p: seq<Emit>, e: Emit)
    ensures Depth(p + [e]) == (match Depth(p) case None => None case Some(h) => Grow(h, e))
    ensures Operands(p + [e]) == Operands(p) + (if e == Operand then 1 else 0)
  {
    assert (p + [e])[..|p|] == p;
  }

  lemma SnocSlot(s: seq<Slot>, x: Slot)
    ensures Opens(s + [x]) == Opens(s) + (if x.Opening? then 1 else 0)
    ensures Bins(s + [x]) == Bins(s) + (if x.Pending? && x.op.Binary? then 1 else 0)
    ensures Ordered(s) && (|s| == 0 || MayFollow(s[|s| - 1], x)) ==> Ordered(s + [x])
  {
    assert (s + [x])[..|s|] == s;
  }

  /** Popping one slot off an ordered stack leaves it ordered. */
  lemma OrderedPrefix(s: seq<Slot>, n: nat)
    requires Ordered(s) && n <= |s|
    ensures Ordered(s[..n])
  {
    forall k | 0 < k < n
      ensures MayFollow(s[..n][k - 1], s[..n][k])
    {
      assert s[..n][k - 1] == s[k - 1] && s[..n][k] == s[k];
    }
  }

  /** A popping loop run right after an operand keeps the bookkeeping:
      each popped binary operator combines two machine values into one, a
      popped '@' keeps the count, and no brace is popped. */
  lemma {:induction false} UnwindKeeps(stack: seq<Slot>, out: seq<Emit>, rule: Rule)
    requires Depth(out) == Some(Bins(stack) + 1)
    ensures var u := Unwind(stack, out, rule);
            && Opens(u.0) == Opens(stack)
            && Operands(u.1) == Operands(out)
            && Depth(u.1) == Some(Bins(u.0) + 1)
    decreases |stack|
  {
    if |stack| > 0 {
      var n := |stack|;
      var top := stack[n - 1];
      if top.Pending? && Yields(rule, top.op) {
        var rest := stack[..n - 1];
        assert stack == rest + [top];
        SnocSlot(rest, top);
        SnocEmit(out, Apply(top.op));
        UnwindKeeps(rest, out + [Apply(top.op)], rule);
        assert Unwind(stack, out, rule) == Unwind(rest, out + [Apply(top.op)], rule);
      }
    }
  }

  /** The loop never pops the brace at the bottom, and leaves the rest of
      the stack in order. */
  lemma UnwindShape(stack: seq<Slot>, out: seq<Emit>, rule: Rule)
    requires |stack| >= 1 && stack[0].Opening? && Ordered(stack)
    ensures var u := Unwind(stack, out, rule);
            |u.0| >= 1 && u.0[0] == stack[0] && Ordered(u.0)
  {
    var u := Unwind(stack, out, rule);
    UnwindPrefix(stack, out, rule);
    OrderedPrefix(stack, |u.0|);
  }

  /** When a prefix sign is allowed, a brace is on top of the stack, so the
      '^' popping loop run for a prefix '-' never pops anything. */
  lemma UnaryMinusPopsNothing<V>(st: Scan<V>)
    requires Inv(st) && st.flags.prefix
    ensures Unwind(st.stack, st.postfix, PowerOnly) == (st.stack, st.postfix)
  {
  }

  lemma OpenBraceKeeps<V>(st: Scan<V>, b: Brace)
    requires Inv(st) && st.flags.open
    ensures OpenBrace(st, b).Ok? && Inv(OpenBrace(st, b).value)
  {
    SnocSlot(st.stack, Opening(b));
  }

  /** Dropping the opening brace on top of an unwound stack, above the
      sentinel, gives a state that keeps the invariant. */
  lemma ClosedGroupKeeps<V>(stack: seq<Slot>, out: seq<Emit>, queue: seq<V>, b: Brace, lvl: int)
    requires |stack| >= 1 && stack[0] == Opening(Round) && Ordered(stack)
    requires stack[|stack| - 1] == Opening(b) && lvl == Opens(stack) - 2 >= 0
    requires Operands(out) == |queue| && Depth(out) == Some(Bins(stack) + 1)
    ensures Inv(Scan(AfterOperand(lvl), lvl, stack[..|stack| - 1], out, queue))
  {
    var m := |stack|;
    OpensBound(stack);
    assert stack == stack[..m - 1] + [Opening(b)];
    SnocSlot(stack[..m - 1], Opening(b));
    OrderedPrefix(stack, m - 1);
  }

  lemma {:induction false} OpensBound(s: seq<Slot>)
    ensures Opens(s) <= |s|
    decreases |s|
  {
    if s != [] {
      OpensBound(s[..|s| - 1]);
    }
  }

  /** The stack a closing brace the flags allow unwinds to: the sentinel
      is still at the bottom, below at least one more opening brace. */
  lemma UnwindForClose<V>(st: Scan<V>)
    requires Inv(st) && st.flags.close
    ensures var u := Unwind(st.stack, st.postfix, Everything);
            && |u.0| >= 1 && u.0[0] == Opening(Round) && Ordered(u.0)
            && Opens(u.0) == st.lvl + 1 && st.lvl > 0
            && Operands(u.1) == |st.queue| && Depth(u.1) == Some(Bins(u.0) + 1)
  {
    assert st.flags == AfterOperand(st.lvl);
    UnwindKeeps(st.stack, st.postfix, Everything);
    UnwindShape(st.stack, st.postfix, Everything);
  }

  /** A closing brace the flags allow either finds an opening brace of its
      own type or fails with a mismatch; it never reaches the sentinel. */
  lemma CloseBraceOutcome<V>(st: Scan<V>, b: Brace)
    requires Inv(st) && st.flags.close
    ensures CloseBrace(st, b).Ok? || CloseBrace(st, b) == Err(Syntax(BracketMismatch))
  {
    UnwindForClose(st);
  }

  /** A successful closing brace keeps the invariant. */
  lemma CloseBraceKeeps<V>(st: Scan<V>, b: Brace)
    requires Inv(st) && st.flags.close && CloseBrace(st, b).Ok?
    ensures Inv(CloseBrace(st, b).value)
  {
    UnwindForClose(st);
    var u := Unwind(st.stack, st.postfix, Everything);
    var lvl := st.lvl - 1;
    ClosedGroupKeeps(u.0, u.1, st.queue, b, lvl);
    assert CloseBrace(st, b).value == Scan(AfterOperand(lvl), lvl, u.0[..|u.0| - 1], u.1, st.queue);
  }

  /** Pushing an operator that may follow the top of an unwound stack
      gives a state, expecting an operand, that keeps the invariant. */
  lemma PushedKeeps<V>(stack: seq<Slot>, out: seq<Emit>, queue: seq<V>, lvl: int, op: Op)
    requires |stack| >= 1 && stack[0] == Opening(Round) && Ordered(stack)
    requires lvl == Opens(stack) - 1 && op.Binary?
    requires MayFollow(stack[|stack| - 1], Pending(op))
    requires Operands(out) == |queue| && Depth(out) == Some(Bins(stack) + 1)
    ensures Inv(Scan(AfterOperator, lvl, stack + [Pending(op)], out, queue))
  {
    SnocSlot(stack, Pending(op));
  }

  lemma PopThenPushKeeps<V>(st: Scan<V>, rule: Rule, op: Op)
    requires Inv(st) && st.flags.binary && op.Binary?
    requires forall x :: Yields(rule, x) || MayFollow(Pending(x), Pending(op))
    ensures PopThenPush(st, rule, op).Ok?
    ensures Inv(PopThenPush(st, rule, op).value)
  {
    UnwindForPush(st, rule);
    var u := Unwind(st.stack, st.postfix, rule);
    StopMayFollow(u.0[|u.0| - 1], rule, op);
    PushedKeeps(u.0, u.1, st.queue, st.lvl, op);
  }

  /** The stack a binary operator the flags allow unwinds to: the sentinel
      is still at the bottom, and the slot on top did not yield. */
  lemma UnwindForPush<V>(st: Scan<V>, rule: Rule)
    requires Inv(st) && st.flags.binary
    ensures var u := Unwind(st.stack, st.postfix, rule);
            && |u.0| >= 1 && u.0[0] == Opening(Round) && Ordered(u.0)
            && st.lvl == Opens(u.0) - 1
            && !(u.0[|u.0| - 1].Pending? && Yields(rule, u.0[|u.0| - 1].op))
            && Operands(u.1) == |st.queue| && Depth(u.1) == Some(Bins(u.0) + 1)
  {
    UnwindKeeps(st.stack, st.postfix, rule);
    UnwindShape(st.stack, st.postfix, rule);
    UnwindPops(st.stack, st.postfix, rule);
  }

  /** The slot the popping loop stopped at may carry the pushed operator. */
  lemma StopMayFollow(top: Slot, rule: Rule, op: Op)
    requires !(top.Pending? && Yields(rule, top.op))
    requires forall x :: Yields(rule, x) || MayFollow(Pending(x), Pending(op))
    ensures MayFollow(top, Pending(op))
  {
    if top.Pending? {
      assert Yields(rule, top.op) || MayFollow(Pending(top.op), Pending(op));
    }
  }

  lemma CaretKeeps<V>(st: Scan<V>)
    requires Inv(st) && st.flags.binary
    ensures Inv(Scan(AfterOperator, st.lvl, st.stack + [Pending(Binary(Pow))], st.postfix, st.queue))
  {
    SnocSlot(st.stack, Pending(Binary(Pow)));
  }

  /** A prefix sign: '+' only changes the flags, '-' pushes '@' on the brace
      that starts the group. */
  lemma PrefixKeeps<V>(st: Scan<V>, sym: Sym)
    requires Inv(st) && !st.flags.binary && st.flags.prefix && (sym == Plus || sym == Minus)
    ensures Operator(st, sym).Ok? && Inv(Operator(st, sym).value)
  {
    if sym == Minus {
      UnaryMinusPopsNothing(st);
      SnocSlot(st.stack, Pending(Negate));
      assert Operator(st, sym) == Ok(Scan(AfterOperator, st.lvl, st.stack + [Pending(Negate)], st.postfix, st.queue));
    } else {
      assert Operator(st, sym) == Ok(st.(flags := AfterOperator));
    }
  }

  /** An operator the flags allow always succeeds and keeps the invariant. */
  lemma OperatorKeeps<V>(st: Scan<V>, sym: Sym)
    requires Inv(st) && Admits(st.flags, OpC(sym))
    ensures Operator(st, sym).Ok? && Inv(Operator(st, sym).value)
  {
    match sym
    case Caret =>
      CaretKeeps(st);
    case Star =>
      PopThenPushKeeps(st, ProductLevel, Binary(Mul));
    case Slash =>
      PopThenPushKeeps(st, ProductLevel, Binary(Div));
    case Plus =>
      if st.flags.binary {
        PopThenPushKeeps(st, Everything, Binary(Add));
      } else {
        PrefixKeeps(st, sym);
      }
    case Minus =>
      if st.flags.binary {
        PopThenPushKeeps(st, Everything, Binary(Sub));
      } else {
        PrefixKeeps(st, sym);
      }
  }

  lemma PushOperandKeeps<V>(st: Scan<V>, v: V)
    requires Inv(st) && st.flags.operand
    ensures Inv(PushOperand(st, v))
  {
    SnocEmit(st.postfix, Operand);
  }

  /** Flushing after an operand at depth 0 leaves a stream that ends with
      exactly one value on the machine. */
  lemma {:induction false} FlushBalanced(stack: seq<Slot>, out: seq<Emit>)
    requires |stack| >= 1 && stack[0] == Opening(Round) && Opens(stack) == 1
    requires Depth(out) == Some(Bins(stack) + 1)
    ensures Flush(stack, out).Ok?
    ensures Depth(Flush(stack, out).value) == Some(1)
    ensures Operands(Flush(stack, out).value) == Operands(out)
    decreases |stack|
  {
    var n := |stack|;
    var top := stack[n - 1];
    var rest := stack[..n - 1];
    assert stack == rest + [top];
    SnocSlot(rest, top);
    if n > 1 {
      OpensPositive(rest);
      assert top.Pending?;
      SnocEmit(out, Apply(top.op));
      FlushBalanced(rest, out + [Apply(top.op)]);
    }
  }

  /** Flushing when no operand ends the input leaves a stream that either
      underflows the machine or leaves it empty. */
  lemma {:induction false} FlushDangling(stack: seq<Slot>, out: seq<Emit>)
    requires |stack| >= 1 && stack[0] == Opening(Round) && Opens(stack) == 1
    requires Depth(out) == None || Depth(out) == Some(Bins(stack))
    ensures Flush(stack, out).Ok?
    ensures Depth(Flush(stack, out).value) == None || Depth(Flush(stack, out).value) == Some(0)
    ensures Operands(Flush(stack, out).value) == Operands(out)
    decreases |stack|
  {
    var n := |stack|;
    var top := stack[n - 1];
    var rest := stack[..n - 1];
    assert stack == rest + [top];
    SnocSlot(rest, top);
    if n > 1 {
      OpensPositive(rest);
      assert top.Pending?;
      SnocEmit(out, Apply(top.op));
      FlushDangling(rest, out + [Apply(top.op)]);
    }
  }

  /** The end of a scan that kept the invariant and closed every brace:
      evaluation succeeds exactly when the input ended after an operand,
      and then the machine ends with one value and every queued value used.
      Input that ends in an operator or a sign ("2+", "-") reaches the
      machine unchecked and fails there on the empty stack. */
  lemma FinishAtLevelZero<V>(num: Numerics<V>, st: Scan<V>)
    requires Inv(st) && st.lvl == 0
    ensures Finish(num, st).Ok? <==> st.flags == AfterOperand(0)
    ensures Finish(num, st).Err? ==> Finish(num, st).error == EmptyStack
    ensures Flush(st.stack, st.postfix).Ok?
    ensures st.flags == AfterOperand(0) ==>
              var m := Exec(num, Flush(st.stack, st.postfix).value, st.queue);
              m.Ok? && |m.value.stack| == 1 && m.value.next == |st.queue|
  {
    var out;
    if st.flags.binary {
      FlushBalanced(st.stack, st.postfix);
      out := Flush(st.stack, st.postfix).value;
    } else {
      FlushDangling(st.stack, st.postfix);
      out := Flush(st.stack, st.postfix).value;
    }
    ExecFollowsDepth(num, out, st.queue);
  }
}

=== FILE: evaluator.dfy ===
/** evaluate, solveFormula and solveCustomFormula
    (src/main/java/io/colocasian/math/Expression.java:58-116, 207-411) as one
    cluster of mutually recursive functions over an explicit context.  Every
    nested evaluation, of a call argument or of a formula body, costs one
    unit of fuel; the source recurses without bound. */
module Evaluator {
  import opened Outcomes
  import opened Numbers
  import opened Lexer
  import opened Registry
  import opened Postfix
  import opened Shunting
  import opened Calls
  import opened Templates
  import opened Builtins

  /** evaluate: a blank expression is refused; otherwise the scan runs over
      the whole text and its end state is finished. */
  function Evaluate<V>(num: Numerics<V>, ctx: Context<V>, s: string, fuel: nat): (r: Result<V>)
    ensures IsBlank(s) ==> r == Err(Syntax(EmptyInput))
    decreases fuel, 3, 0, 0
  {
    if IsBlank(s) then Err(Syntax(EmptyInput))
    else
      var st :- ScanFrom(num, ctx, s, 0, Initial(), fuel);
      Finish(num, st)
  }

  /** The scan loop from position i. */
  function ScanFrom<V>(num: Numerics<V>, ctx: Context<V>, s: string, i: nat, st: Scan<V>, fuel: nat): Result<Scan<V>>
    requires i <= |s|
    decreases fuel, 2, |s| - i, 2
  {
    if i == |s| then Ok(st)
    else
      var next :- Token(num, ctx, s, i, st, fuel);
      ScanFrom(num, ctx, s, next.1, next.0, fuel)
  }

  /** One turn of the scan loop: the character at i, and whatever literal,
      name or call starts there.  Answers the new state and the position
      after what was consumed. */
  function Token<V>(num: Numerics<V>, ctx: Context<V>, s: string, i: nat, st: Scan<V>, fuel: nat): (r: Result<(Scan<V>, nat)>)
    requires i < |s|
    ensures r.Ok? ==> i < r.value.1 <= |s|
    ensures !Admits(st.flags, Classify(s[i])) ==> r == Err(Syntax(Rejection(Classify(s[i]))))
    decreases fuel, 2, |s| - i, 1
  {
    match Classify(s[i])
    case OpenC(b) =>
      var st' :- OpenBrace(st, b);
      Ok((st', i + 1))
    case CloseC(b) =>
      var st' :- CloseBrace(st, b);
      Ok((st', i + 1))
    case NumC =>
      if !st.flags.operand then Err(Syntax(UnexpectedNumber))
      else
        var (v, j) :- LiteralOperand(num, s, i);
        Ok((PushOperand(st, v), j))
    case NameC =>
      if !st.flags.operand then Err(Syntax(UnexpectedName))
      else
        var (v, j) :- NamedOperand(num, ctx, s, i, fuel);
        Ok((PushOperand(st, v), j))
    case OpC(sym) =>
      var st' :- Operator(st, sym);
      Ok((st', i + 1))
    case Space =>
      Ok((st, i + 1))
    case Stray =>
      Err(Syntax(UnexpectedCharacter))
  }

  /** A numeric literal at i: its value and the position after it. */
  function LiteralOperand<V>(num: Numerics<V>, s: string, i: nat): (r: Result<(V, nat)>)
    requires i < |s| && IsNum(s[i])
    ensures r.Ok? ==> r.value.1 == LiteralEnd(s, i) && num.parse(s[i..r.value.1]) == Some(r.value.0)
    ensures r.Err? ==> r.error == MalformedNumber && num.parse(s[i..LiteralEnd(s, i)]).None?
  {
    var j := LiteralEnd(s, i);
    var parsed := num.parse(s[i..j]);
    if parsed.None? then Err(MalformedNumber) else Ok((parsed.value, j))
  }

  /** A name at i: the value of the call when '(' follows it, otherwise
      the value of the variable.  Answers the position after the name or
      after the call's closing parenthesis. */
  function NamedOperand<V>(num: Numerics<V>, ctx: Context<V>, s: string, i: nat, fuel: nat): (r: Result<(V, nat)>)
    requires i < |s| && IsVar(s[i])
    ensures r.Ok? ==> i < r.value.1 <= |s|
    ensures var j := NameRunEnd(s, i + 1);
            !(j < |s| && s[j] == '(') ==>
              r == (if s[i..j] in ctx.vars then Ok((ctx.vars[s[i..j]], j)) else Err(Undefined(Variable)))
    ensures var j := NameRunEnd(s, i + 1);
            j < |s| && s[j] == '(' ==> r == CallOperand(num, ctx, s[i..j], s, j, fuel)
    decreases fuel, 2, |s| - i, 0
  {
    var j := NameRunEnd(s, i + 1);
    if j < |s| && s[j] == '(' then CallOperand(num, ctx, s[i..j], s, j, fuel)
    else if s[i..j] !in ctx.vars then Err(Undefined(Variable))
    else Ok((ctx.vars[s[i..j]], j))
  }

  /** A call of name whose '(' is at j: the argument texts the call scan
      delimits are evaluated, with one unit of fuel less, and handed to
      solveFormula (Properties.CallEvaluatesArguments).  A call without a
      matching ')' is unclosed.  A successful call answers the position
      after its closing parenthesis. */
  function CallOperand<V>(num: Numerics<V>, ctx: Context<V>, name: string, s: string, j: nat, fuel: nat): (r: Result<(V, nat)>)
    requires j < |s| && s[j] == '('
    ensures CallScan(s, j).None? ==> r == Err(Syntax(UnclosedCall))
    ensures CallScan(s, j).Some? && fuel == 0 ==> r == Err(OutOfFuel)
    ensures r.Ok? ==> j + 1 < r.value.1 <= |s|
    ensures r.Ok? ==> CallScan(s, j).Some? && var stops := CallScan(s, j).value; r.value.1 == stops[|stops| - 1] + 1
    decreases fuel, 1, 0, 0
  {
    match CallScan(s, j)
    case None => Err(Syntax(UnclosedCall))
    case Some(stops) =>
      if fuel == 0 then Err(OutOfFuel)
      else
        match EvalArgs(num, ctx, Arguments(s, stops), fuel - 1)
        case Err(e) => Err(e)
        case Ok(args) =>
          match SolveFormula(num, ctx, name, args, fuel - 1)
          case Err(e) => Err(e)
          case Ok(v) => Ok((v, stops[|stops| - 1] + 1))
  }

  /** The arguments of a call, evaluated left to right; the first failure
      aborts the call. */
  function EvalArgs<V>(num: Numerics<V>, ctx: Context<V>, args: seq<string>, fuel: nat): (r: Result<seq<V>>)
    ensures r.Ok? <==> forall l :: 0 <= l < |args| ==> Evaluate(num, ctx, args[l], fuel).Ok?
    ensures r.Ok? ==> |r.value| == |args|
    ensures r.Ok? ==> forall l :: 0 <= l < |args| ==> Evaluate(num, ctx, args[l], fuel) == Ok(r.value[l])
    ensures r.Err? ==> exists l :: 0 <= l < |args| && Evaluate(num, ctx, args[l], fuel) == Err(r.error)
                                   && forall l' :: 0 <= l' < l ==> Evaluate(num, ctx, args[l'], fuel).Ok?
    decreases fuel, 4, |args|, 0
  {
    if args == [] then Ok([])
    else
      var v :- Evaluate(num, ctx, args[0], fuel);
      var rest :- EvalArgs(num, ctx, args[1..], fuel);
      Ok([v] + rest)
  }

  /** solveFormula: the key name#arity selects a built-in first, then a
      user formula; a key in neither place is an undefined function. */
  function SolveFormula<V>(num: Numerics<V>, ctx: Context<V>, name: string, params: seq<V>, fuel: nat): (r: Result<V>)
    ensures BuiltinOf(FormulaId(name, |params|)).Some? ==> r.Ok?
    ensures BuiltinOf(FormulaId(name, |params|)).None? && FormulaId(name, |params|) !in ctx.funs ==>
              r == Err(Undefined(Function))
    decreases fuel, 5, 0, 0
  {
    var id := FormulaId(name, |params|);
    match BuiltinOf(id)
    case Some(b) =>
      BuiltinArity(name, |params|, b);
      Ok(ApplyBuiltin(num, b, params))
    case None =>
      if id in ctx.funs then SolveCustom(num, ctx, ctx.funs[id], params, fuel)
      else Err(Undefined(Function))
  }

  /** The printed form of each argument (Double.toString). */
  function Shown<V>(num: Numerics<V>, params: seq<V>): (r: seq<string>)
    ensures |r| == |params|
    ensures forall k :: 0 <= k < |params| ==> r[k] == num.show(params[k])
  {
    if params == [] then [] else [num.show(params[0])] + Shown(num, params[1..])
  }

  /** solveCustomFormula: the placeholders are replaced by the printed
      arguments in parentheses and the result is evaluated afresh. */
  function SolveCustom<V>(num: Numerics<V>, ctx: Context<V>, template: string, params: seq<V>, fuel: nat): Result<V>
    decreases fuel, 4, 0, 0
  {
    Evaluate(num, ctx, Substitute(template, Shown(num, params)), fuel)
  }
}

=== FILE: examples.dfy ===
/** Worked inputs for evaluate (src/main/java/io/colocasian/math/Expression.java:207-411):
    what the shunting-yard pass compiles a few short expressions to, and
    the syntax errors it raises.  The number domain stays abstract; each
    example only fixes what the literals it uses parse to. */
module Examples {
  import opened Outcomes
  import opened Numbers
  import opened Lexer
  import Decimal
  import opened Registry
  import opened Postfix
  import opened Shunting
  import opened Calls
  import opened Templates
  import opened Builtins
  import opened Evaluator
  import opened Properties

  /** One successful turn followed by the rest of the scan. */
  lemma ScanStep<V>(num: Numerics<V>, ctx: Context<V>, s: string, i: nat, st: Scan<V>, fuel: nat, st': Scan<V>, j: nat, rest: Result<Scan<V>>)
    requires i < j <= |s|
    requires Token(num, ctx, s, i, st, fuel) == Ok((st', j))
    requires ScanFrom(num, ctx, s, j, st', fuel) == rest
    ensures ScanFrom(num, ctx, s, i, st, fuel) == rest
  {
  }

  /** A one-digit literal at i, read where an operand is expected. */
  lemma DigitToken<V>(num: Numerics<V>, ctx: Context<V>, s: string, i: nat, st: Scan<V>, fuel: nat, v: V)
    requires i < |s| && Decimal.IsDigit(s[i])
    requires i + 1 == |s| || (!IsNum(s[i + 1]) && !IsExponentMark(s[i + 1]))
    requires st.flags.operand && num.parse([s[i]]) == Some(v)
    ensures Token(num, ctx, s, i, st, fuel) == Ok((PushOperand(st, v), i + 1))
  {
    assert Classify(s[i]) == NumC;
    assert NumRunEnd(s, i + 1) == i + 1;
    assert s[i..i + 1] == [s[i]];
    assert LiteralOperand(num, s, i) == Ok((v, i + 1));
  }

  /** An operator character at i. */
  lemma OperatorToken<V>(num: Numerics<V>, ctx: Context<V>, s: string, i: nat, st: Scan<V>, fuel: nat, sym: Sym)
    requires i < |s| && Classify(s[i]) == OpC(sym) && Operator(st, sym).Ok?
    ensures Token(num, ctx, s, i, st, fuel) == Ok((Operator(st, sym).value, i + 1))
  {
  }

  /** A one-digit literal at i, followed by the rest of the scan. */
  lemma DigitStep<V>(num: Numerics<V>, ctx: Context<V>, s: string, i: nat, st: Scan<V>, fuel: nat, v: V, rest: Result<Scan<V>>)
    requires i < |s| && Decimal.IsDigit(s[i])
    requires i + 1 == |s| || (!IsNum(s[i + 1]) && !IsExponentMark(s[i + 1]))
    requires st.flags.operand && num.parse([s[i]]) == Some(v)
    requires ScanFrom(num, ctx, s, i + 1, PushOperand(st, v), fuel) == rest
    ensures ScanFrom(num, ctx, s, i, st, fuel) == rest
  {
    DigitToken(num, ctx, s, i, st, fuel, v);
    ScanStep(num, ctx, s, i, st, fuel, PushOperand(st, v), i + 1, rest);
  }

  /** An operator character at i, followed by the rest of the scan. */
  lemma OperatorStep<V>(num: Numerics<V>, ctx: Context<V>, s: string, i: nat, st: Scan<V>, fuel: nat, sym: Sym, st': Scan<V>, rest: Result<Scan<V>>)
    requires i < |s| && Classify(s[i]) == OpC(sym) && Operator(st, sym) == Ok(st')
    requires ScanFrom(num, ctx, s, i + 1, st', fuel) == rest
    ensures ScanFrom(num, ctx, s, i, st, fuel) == rest
  {
    OperatorToken(num, ctx, s, i, st, fuel, sym);
    ScanStep(num, ctx, s, i, st, fuel, st', i + 1, rest);
  }

  /** The popping loop stops at once below a slot that does not yield. */
  lemma UnwindStops(stack: seq<Slot>, out: seq<Emit>, rule: Rule)
    requires |stack| > 0 && !(stack[|stack| - 1].Pending? && Yields(rule, stack[|stack| - 1].op))
    ensures Unwind(stack, out, rule) == (stack, out)
  {
  }

  /** An operator pushed where the popping loop stops at once. */
  lemma PushesAtOnce<V>(st: Scan<V>, rule: Rule, op: Op)
    requires |st.stack| > 0 && !(st.stack[|st.stack| - 1].Pending? && Yields(rule, st.stack[|st.stack| - 1].op))
    ensures PopThenPush(st, rule, op) == Ok(Scan(AfterOperator, st.lvl, st.stack + [Pending(op)], st.postfix, st.queue))
  {
    UnwindStops(st.stack, st.postfix, rule);
  }

  /** A scan over blank text queues no operand: a character at most U+0020
      is either skipped as a space or refused. */
  lemma {:induction false} BlankScanQueuesNothing<V>(num: Numerics<V>, ctx: Context<V>, s: string, i: nat, st: Scan<V>, fuel: nat)
    requires i <= |s| && forall k :: i <= k < |s| ==> s[k] <= ' '
    requires ScanFrom(num, ctx, s, i, st, fuel).Ok?
    ensures ScanFrom(num, ctx, s, i, st, fuel).value.queue == st.queue
    decreases |s| - i
  {
    if i < |s| {
      assert Classify(s[i]) == Space;
      BlankScanQueuesNothing(num, ctx, s, i + 1, st, fuel);
    }
  }

  /** A scan that compiles s to the postfix form of a tree evaluates s to
      the tree's value. */
  lemma EvaluateAsTree<V>(num: Numerics<V>, ctx: Context<V>, s: string, fuel: nat, st: Scan<V>, t: Tree<V>)
    requires ScanFrom(num, ctx, s, 0, Initial(), fuel) == Ok(st) && st.lvl == 0
    requires Flush(st.stack, st.postfix) == Ok(Emits(t)) && st.queue == Leaves(t)
    ensures Evaluate(num, ctx, s, fuel) == Ok(Eval(num, t))
  {
    if IsBlank(s) {
      BlankScanQueuesNothing(num, ctx, s, 0, Initial(), fuel);
      LeavesNonEmpty(t);
      assert false;
    }
    PostfixOfTree(num, t);
  }

  /** Every tree has at least one leaf. */
  lemma {:induction false} LeavesNonEmpty<V>(t: Tree<V>)
    ensures |Leaves(t)| > 0
  {
    match t
    case Leaf(_) =>
    case Neg(a) => LeavesNonEmpty(a);
    case Node(_, l, _) => LeavesNonEmpty(l);
  }

  /** Stack slots of the pending operators in the examples. */
  const PowSlot := Pending(Binary(Postfix.Pow))
  const SubSlot := Pending(Binary(Postfix.Sub))
  const AddSlot := Pending(Binary(Postfix.Add))
  const MulSlot := Pending(Binary(Postfix.Mul))
  const SignSlot := Pending(Negate)

  /** "2^3^2" compiles to 2 3 2 ^ ^: '^' pushes without popping. */
  lemma PowersCompile<V>(num: Numerics<V>, ctx: Context<V>, fuel: nat, a: V, b: V)
    requires num.parse("2") == Some(a) && num.parse("3") == Some(b)
    ensures ScanFrom(num, ctx, "2^3^2", 0, Initial(), fuel)
            == Ok(Scan(AfterOperand(0), 0, [Opening(Round), PowSlot, PowSlot], [Operand, Operand, Operand], [a, b, a]))
  {
    var s := "2^3^2";
    var st2 := Scan(AfterOperator, 0, [Opening(Round), PowSlot], [Operand], [a]);
    var last := Scan(AfterOperand(0), 0, [Opening(Round), PowSlot, PowSlot], [Operand, Operand, Operand], [a, b, a]);
    PowersTail(num, ctx, fuel, a, b);
    var st1 := PushOperand(Initial<V>(), a);
    assert st1 == Scan(AfterOperand(0), 0, [Opening(Round)], [Operand], [a]);
    assert st1.stack + [PowSlot] == st2.stack;
    OperatorStep(num, ctx, s, 1, st1, fuel, Caret, st2, Ok(last));
    DigitStep(num, ctx, s, 0, Initial(), fuel, a, Ok(last));
  }

  /** "2^3^2" from its first '^' on: the second '^' is pushed on the first. */
  lemma PowersTail<V>(num: Numerics<V>, ctx: Context<V>, fuel: nat, a: V, b: V)
    requires num.parse("2") == Some(a) && num.parse("3") == Some(b)
    ensures ScanFrom(num, ctx, "2^3^2", 2, Scan(AfterOperator, 0, [Opening(Round), PowSlot], [Operand], [a]), fuel)
            == Ok(Scan(AfterOperand(0), 0, [Opening(Round), PowSlot, PowSlot], [Operand, Operand, Operand], [a, b, a]))
  {
    var s := "2^3^2";
    var st2 := Scan(AfterOperator, 0, [Opening(Round), PowSlot], [Operand], [a]);
    var st3 := Scan(AfterOperand(0), 0, [Opening(Round), PowSlot], [Operand, Operand], [a, b]);
    var st4 := Scan(AfterOperator, 0, [Opening(Round), PowSlot, PowSlot], [Operand, Operand], [a, b]);
    var last := Scan(AfterOperand(0), 0, [Opening(Round), PowSlot, PowSlot], [Operand, Operand, Operand], [a, b, a]);
    assert PushOperand(st4, a) == last;
    DigitStep(num, ctx, s, 4, st4, fuel, a, Ok(last));
    assert st3.stack + [PowSlot] == st4.stack;
    OperatorStep(num, ctx, s, 3, st3, fuel, Caret, st4, Ok(last));
    assert PushOperand(st2, b) == st3;
    DigitStep(num, ctx, s, 2, st2, fuel, b, Ok(last));
  }

  /** "2^3^2" is 2^(3^2). */
  lemma PowerIsRightAssociative<V>(num: Numerics<V>, ctx: Context<V>, fuel: nat, a: V, b: V)
    requires num.parse("2") == Some(a) && num.parse("3") == Some(b)
    ensures Evaluate(num, ctx, "2^3^2", fuel) == Ok(num.pow(a, num.pow(b, a)))
  {
    PowersCompile(num, ctx, fuel, a, b);
    var st := Scan(AfterOperand(0), 0, [Opening(Round), PowSlot, PowSlot], [Operand, Operand, Operand], [a, b, a]);
    var t := Node(Postfix.Pow, Leaf(a), Node(Postfix.Pow, Leaf(b), Leaf(a)));
    PowersTree(num, a, b);
    EvaluateAsTree(num, ctx, "2^3^2", fuel, st, t);
  }

  /** The end-of-input pops turn the scan of "2^3^2" into the postfix form
      of 2^(3^2). */
  lemma PowersTree<V>(num: Numerics<V>, a: V, b: V)
    ensures var t := Node(Postfix.Pow, Leaf(a), Node(Postfix.Pow, Leaf(b), Leaf(a)));
            && Flush([Opening(Round), PowSlot, PowSlot], [Operand, Operand, Operand]) == Ok(Emits(t))
            && Leaves(t) == [a, b, a] && Eval(num, t) == num.pow(a, num.pow(b, a))
  {
    var stack := [Opening(Round), PowSlot, PowSlot];
    var u := Node(Postfix.Pow, Leaf(b), Leaf(a));
    var t := Node(Postfix.Pow, Leaf(a), u);
    FlushDrains(stack, [Operand, Operand, Operand]);
    assert stack[1..] == [PowSlot, PowSlot];
    assert Drain([PowSlot]) == [Apply(Binary(Postfix.Pow))];
    assert [PowSlot, PowSlot][..1] == [PowSlot];
    assert Drain([PowSlot, PowSlot]) == [Apply(Binary(Postfix.Pow)), Apply(Binary(Postfix.Pow))];
    assert Emits(u) == [Operand, Operand, Apply(Binary(Postfix.Pow))];
    assert Emits(t) == [Operand, Operand, Operand, Apply(Binary(Postfix.Pow)), Apply(Binary(Postfix.Pow))];
    assert Leaves(u) == [b, a];
    assert Leaves(t) == [a, b, a];
    assert [Operand, Operand, Operand] + Drain(stack[1..]) == Emits(t);
    assert Eval(num, u) == num.pow(b, a);
  }

  /** "2*-3": a sign is accepted only at the start or after an opening
      brace, so the '-' after '*' is refused. */
  lemma SignAfterOperator<V>(num: Numerics<V>, ctx: Context<V>, fuel: nat, a: V)
    requires num.parse("2") == Some(a)
    ensures Evaluate(num, ctx, "2*-3", fuel) == Err(Syntax(UnexpectedOperator))
  {
    var s := "2*-3";
    var st1 := PushOperand(Initial<V>(), a);
    DigitToken(num, ctx, s, 0, Initial(), fuel, a);
    assert Unwind(st1.stack, st1.postfix, ProductLevel) == (st1.stack, st1.postfix);
    var st2 := Operator(st1, Star).value;
    OperatorToken(num, ctx, s, 1, st1, fuel, Star);
    assert st2.flags == AfterOperator;
    assert Classify(s[2]) == OpC(Minus);
    assert Token(num, ctx, s, 2, st2, fuel) == Err(Syntax(UnexpectedOperator));
    ScanStep(num, ctx, s, 1, st1, fuel, st2, 2, Err(Syntax(UnexpectedOperator)));
    ScanStep(num, ctx, s, 0, Initial(), fuel, st1, 1, Err(Syntax(UnexpectedOperator)));
    assert !IsBlank(s) by {
      assert s[0] > ' ';
    }
  }

  /** "--3": after a sign only an operand or an opening brace may follow. */
  lemma DoubleSign<V>(num: Numerics<V>, ctx: Context<V>, fuel: nat)
    ensures Evaluate(num, ctx, "--3", fuel) == Err(Syntax(UnexpectedOperator))
  {
    var s := "--3";
    var st0 := Initial<V>();
    assert Unwind(st0.stack, st0.postfix, PowerOnly) == (st0.stack, st0.postfix);
    var st1 := Operator(st0, Minus).value;
    OperatorToken(num, ctx, s, 0, st0, fuel, Minus);
    assert st1.flags == AfterOperator;
    assert Classify(s[1]) == OpC(Minus);
    assert Token(num, ctx, s, 1, st1, fuel) == Err(Syntax(UnexpectedOperator));
    ScanStep(num, ctx, s, 0, st0, fuel, st1, 1, Err(Syntax(UnexpectedOperator)));
    assert !IsBlank(s) by {
      assert s[0] > ' ';
    }
  }

  /** "2+": nothing in the scan refuses a trailing operator; the postfix
      machine then finds too few values. */
  lemma TrailingOperator<V>(num: Numerics<V>, ctx: Context<V>, fuel: nat, a: V)
    requires num.parse("2") == Some(a)
    ensures Evaluate(num, ctx, "2+", fuel) == Err(EmptyStack)
  {
    var s := "2+";
    var st1 := PushOperand(Initial<V>(), a);
    DigitToken(num, ctx, s, 0, Initial(), fuel, a);
    assert Unwind(st1.stack, st1.postfix, Everything) == (st1.stack, st1.postfix);
    var st2 := Operator(st1, Plus).value;
    OperatorToken(num, ctx, s, 1, st1, fuel, Plus);
    assert st2.flags == AfterOperator && st2.lvl == 0;
    ScanStep(num, ctx, s, 1, st1, fuel, st2, 2, Ok(st2));
    ScanStep(num, ctx, s, 0, Initial(), fuel, st1, 1, Ok(st2));
    assert !IsBlank(s) by {
      assert s[0] > ' ';
    }
    EvaluateAtEnd(num, ctx, s, fuel);
  }

  /** "2-3-2" compiles to 2 3 - 2 -: the second '-' pops the first. */
  lemma DifferencesCompile<V>(num: Numerics<V>, ctx: Context<V>, fuel: nat, a: V, b: V)
    requires num.parse("2") == Some(a) && num.parse("3") == Some(b)
    ensures ScanFrom(num, ctx, "2-3-2", 0, Initial(), fuel)
            == Ok(Scan(AfterOperand(0), 0, [Opening(Round), SubSlot],
                       [Operand, Operand, Apply(Binary(Postfix.Sub)), Operand], [a, b, a]))
  {
    var s := "2-3-2";
    var st2 := Scan(AfterOperator, 0, [Opening(Round), SubSlot], [Operand], [a]);
    var last := Scan(AfterOperand(0), 0, [Opening(Round), SubSlot],
                     [Operand, Operand, Apply(Binary(Postfix.Sub)), Operand], [a, b, a]);
    DifferencesTail(num, ctx, fuel, a, b);
    var st1 := PushOperand(Initial<V>(), a);
    assert st1 == Scan(AfterOperand(0), 0, [Opening(Round)], [Operand], [a]);
    PushesAtOnce(st1, Everything, Binary(Postfix.Sub));
    assert st1.stack + [SubSlot] == st2.stack;
    OperatorStep(num, ctx, s, 1, st1, fuel, Minus, st2, Ok(last));
    DigitStep(num, ctx, s, 0, Initial(), fuel, a, Ok(last));
  }

  /** "2-3-2" from its first '-' on. */
  lemma DifferencesTail<V>(num: Numerics<V>, ctx: Context<V>, fuel: nat, a: V, b: V)
    requires num.parse("2") == Some(a) && num.parse("3") == Some(b)
    ensures ScanFrom(num, ctx, "2-3-2", 2, Scan(AfterOperator, 0, [Opening(Round), SubSlot], [Operand], [a]), fuel)
            == Ok(Scan(AfterOperand(0), 0, [Opening(Round), SubSlot],
                       [Operand, Operand, Apply(Binary(Postfix.Sub)), Operand], [a, b, a]))
  {
    var s := "2-3-2";
    var st2 := Scan(AfterOperator, 0, [Opening(Round), SubSlot], [Operand], [a]);
    var st3 := Scan(AfterOperand(0), 0, [Opening(Round), SubSlot], [Operand, Operand], [a, b]);
    var last := Scan(AfterOperand(0), 0, [Opening(Round), SubSlot],
                     [Operand, Operand, Apply(Binary(Postfix.Sub)), Operand], [a, b, a]);
    DifferencesEnd(num, ctx, fuel, a, b);
    assert PushOperand(st2, b) == st3;
    DigitStep(num, ctx, s, 2, st2, fuel, b, Ok(last));
  }

  /** "2-3-2" from its second '-' on. */
  lemma DifferencesEnd<V>(num: Numerics<V>, ctx: Context<V>, fuel: nat, a: V, b: V)
    requires num.parse("2") == Some(a)
    ensures ScanFrom(num, ctx, "2-3-2", 3, Scan(AfterOperand(0), 0, [Opening(Round), SubSlot], [Operand, Operand], [a, b]), fuel)
            == Ok(Scan(AfterOperand(0), 0, [Opening(Round), SubSlot],
                       [Operand, Operand, Apply(Binary(Postfix.Sub)), Operand], [a, b, a]))
  {
    var s := "2-3-2";
    var st3 := Scan(AfterOperand(0), 0, [Opening(Round), SubSlot], [Operand, Operand], [a, b]);
    var st4 := Scan(AfterOperator, 0, [Opening(Round), SubSlot], [Operand, Operand, Apply(Binary(Postfix.Sub))], [a, b]);
    var last := Scan(AfterOperand(0), 0, [Opening(Round), SubSlot],
                     [Operand, Operand, Apply(Binary(Postfix.Sub)), Operand], [a, b, a]);
    assert PushOperand(st4, a) == last;
    DigitStep(num, ctx, s, 4, st4, fuel, a, Ok(last));
    SecondDifference(st3);
    OperatorStep(num, ctx, s, 3, st3, fuel, Minus, st4, Ok(last));
  }

  /** The second '-' of "2-3-2" pops the first and takes its place. */
  lemma SecondDifference<V>(st: Scan<V>)
    requires st.flags == AfterOperand(0) && st.lvl == 0
    requires st.stack == [Opening(Round), SubSlot] && st.postfix == [Operand, Operand]
    ensures Operator(st, Minus)
            == Ok(Scan(AfterOperator, 0, [Opening(Round), SubSlot], [Operand, Operand, Apply(Binary(Postfix.Sub))], st.queue))
  {
    UnwindStops([Opening(Round)], [Operand, Operand, Apply(Binary(Postfix.Sub))], Everything);
    assert [Opening(Round), SubSlot][..1] == [Opening(Round)];
    assert [Operand, Operand] + [Apply(Binary(Postfix.Sub))] == [Operand, Operand, Apply(Binary(Postfix.Sub))];
    assert Unwind(st.stack, st.postfix, Everything) == ([Opening(Round)], [Operand, Operand, Apply(Binary(Postfix.Sub))]);
    assert [Opening(Round)] + [SubSlot] == [Opening(Round), SubSlot];
    assert Operator(st, Minus) == PopThenPush(st, Everything, Binary(Postfix.Sub));
  }

  /** "2-3-2" is (2-3)-2. */
  lemma DifferenceIsLeftAssociative<V>(num: Numerics<V>, ctx: Context<V>, fuel: nat, a: V, b: V)
    requires num.parse("2") == Some(a) && num.parse("3") == Some(b)
    ensures Evaluate(num, ctx, "2-3-2", fuel) == Ok(num.sub(num.sub(a, b), a))
  {
    DifferencesCompile(num, ctx, fuel, a, b);
    var st := Scan(AfterOperand(0), 0, [Opening(Round), SubSlot], [Operand, Operand, Apply(Binary(Postfix.Sub)), Operand], [a, b, a]);
    var t := Node(Postfix.Sub, Node(Postfix.Sub, Leaf(a), Leaf(b)), Leaf(a));
    DifferencesTree(num, a, b);
    EvaluateAsTree(num, ctx, "2-3-2", fuel, st, t);
  }

  /** The end-of-input pops turn the scan of "2-3-2" into the postfix form
      of (2-3)-2. */
  lemma DifferencesTree<V>(num: Numerics<V>, a: V, b: V)
    ensures var t := Node(Postfix.Sub, Node(Postfix.Sub, Leaf(a), Leaf(b)), Leaf(a));
            && Flush([Opening(Round), SubSlot], [Operand, Operand, Apply(Binary(Postfix.Sub)), Operand]) == Ok(Emits(t))
            && Leaves(t) == [a, b, a] && Eval(num, t) == num.sub(num.sub(a, b), a)
  {
    var stack := [Opening(Round), SubSlot];
    var u := Node(Postfix.Sub, Leaf(a), Leaf(b));
    var t := Node(Postfix.Sub, u, Leaf(a));
    FlushDrains(stack, [Operand, Operand, Apply(Binary(Postfix.Sub)), Operand]);
    assert stack[1..] == [SubSlot];
    assert Drain([SubSlot]) == [Apply(Binary(Postfix.Sub))];
    assert Emits(u) == [Operand, Operand, Apply(Binary(Postfix.Sub))];
    assert Emits(t) == [Operand, Operand, Apply(Binary(Postfix.Sub)), Operand, Apply(Binary(Postfix.Sub))];
    assert Leaves(u) == [a, b];
    assert Leaves(t) == [a, b, a];
    assert [Operand, Operand, Apply(Binary(Postfix.Sub)), Operand] + Drain(stack[1..]) == Emits(t);
    assert Eval(num, u) == num.sub(a, b);
  }

  /** "2+3*2" compiles to 2 3 2 * +: '*' does not pop '+'. */
  lemma SumOfProductCompiles<V>(num: Numerics<V>, ctx: Context<V>, fuel: nat, a: V, b: V)
    requires num.parse("2") == Some(a) && num.parse("3") == Some(b)
    ensures ScanFrom(num, ctx, "2+3*2", 0, Initial(), fuel)
            == Ok(Scan(AfterOperand(0), 0, [Opening(Round), AddSlot, MulSlot], [Operand, Operand, Operand], [a, b, a]))
  {
    var s := "2+3*2";
    var st2 := Scan(AfterOperator, 0, [Opening(Round), AddSlot], [Operand], [a]);
    var last := Scan(AfterOperand(0), 0, [Opening(Round), AddSlot, MulSlot], [Operand, Operand, Operand], [a, b, a]);
    SumOfProductTail(num, ctx, fuel, a, b);
    var st1 := PushOperand(Initial<V>(), a);
    assert st1 == Scan(AfterOperand(0), 0, [Opening(Round)], [Operand], [a]);
    PushesAtOnce(st1, Everything, Binary(Postfix.Add));
    assert st1.stack + [AddSlot] == st2.stack;
    OperatorStep(num, ctx, s, 1, st1, fuel, Plus, st2, Ok(last));
    DigitStep(num, ctx, s, 0, Initial(), fuel, a, Ok(last));
  }

  /** "2+3*2" from its '+' on: '*' is pushed on the '+'. */
  lemma SumOfProductTail<V>(num: Numerics<V>, ctx: Context<V>, fuel: nat, a: V, b: V)
    requires num.parse("2") == Some(a) && num.parse("3") == Some(b)
    ensures ScanFrom(num, ctx, "2+3*2", 2, Scan(AfterOperator, 0, [Opening(Round), AddSlot], [Operand], [a]), fuel)
            == Ok(Scan(AfterOperand(0), 0, [Opening(Round), AddSlot, MulSlot], [Operand, Operand, Operand], [a, b, a]))
  {
    var s := "2+3*2";
    var st2 := Scan(AfterOperator, 0, [Opening(Round), AddSlot], [Operand], [a]);
    var st3 := Scan(AfterOperand(0), 0, [Opening(Round), AddSlot], [Operand, Operand], [a, b]);
    var st4 := Scan(AfterOperator, 0, [Opening(Round), AddSlot, MulSlot], [Operand, Operand], [a, b]);
    var last := Scan(AfterOperand(0), 0, [Opening(Round), AddSlot, MulSlot], [Operand, Operand, Operand], [a, b, a]);
    assert PushOperand(st4, a) == last;
    DigitStep(num, ctx, s, 4, st4, fuel, a, Ok(last));
    PushesAtOnce(st3, ProductLevel, Binary(Postfix.Mul));
    assert st3.stack + [MulSlot] == st4.stack;
    OperatorStep(num, ctx, s, 3, st3, fuel, Star, st4, Ok(last));
    assert PushOperand(st2, b) == st3;
    DigitStep(num, ctx, s, 2, st2, fuel, b, Ok(last));
  }

  /** "2+3*2" is 2+(3*2). */
  lemma ProductBindsTighter<V>(num: Numerics<V>, ctx: Context<V>, fuel: nat, a: V, b: V)
    requires num.parse("2") == Some(a) && num.parse("3") == Some(b)
    ensures Evaluate(num, ctx, "2+3*2", fuel) == Ok(num.add(a, num.mul(b, a)))
  {
    SumOfProductCompiles(num, ctx, fuel, a, b);
    var st := Scan(AfterOperand(0), 0, [Opening(Round), AddSlot, MulSlot], [Operand, Operand, Operand], [a, b, a]);
    var t := Node(Postfix.Add, Leaf(a), Node(Postfix.Mul, Leaf(b), Leaf(a)));
    SumOfProductTree(num, a, b);
    EvaluateAsTree(num, ctx, "2+3*2", fuel, st, t);
  }

  /** The end-of-input pops turn the scan of "2+3*2" into the postfix form
      of 2+(3*2). */
  lemma SumOfProductTree<V>(num: Numerics<V>, a: V, b: V)
    ensures var t := Node(Postfix.Add, Leaf(a), Node(Postfix.Mul, Leaf(b), Leaf(a)));
            && Flush([Opening(Round), AddSlot, MulSlot], [Operand, Operand, Operand]) == Ok(Emits(t))
            && Leaves(t) == [a, b, a] && Eval(num, t) == num.add(a, num.mul(b, a))
  {
    var stack := [Opening(Round), AddSlot, MulSlot];
    var u := Node(Postfix.Mul, Leaf(b), Leaf(a));
    var t := Node(Postfix.Add, Leaf(a), u);
    FlushDrains(stack, [Operand, Operand, Operand]);
    assert stack[1..] == [AddSlot, MulSlot];
    assert Drain([AddSlot]) == [Apply(Binary(Postfix.Add))];
    assert [AddSlot, MulSlot][..1] == [AddSlot];
    assert Drain([AddSlot, MulSlot]) == [Apply(Binary(Postfix.Mul)), Apply(Binary(Postfix.Add))];
    assert Emits(u) == [Operand, Operand, Apply(Binary(Postfix.Mul))];
    assert Emits(t) == [Operand, Operand, Operand, Apply(Binary(Postfix.Mul)), Apply(Binary(Postfix.Add))];
    assert Leaves(u) == [b, a];
    assert Leaves(t) == [a, b, a];
    assert [Operand, Operand, Operand] + Drain(stack[1..]) == Emits(t);
    assert Eval(num, u) == num.mul(b, a);
  }

  /** "-2^2" compiles to 2 2 ^ @: the sign waits below the power. */
  lemma NegatedPowerCompiles<V>(num: Numerics<V>, ctx: Context<V>, fuel: nat, a: V)
    requires num.parse("2") == Some(a)
    ensures ScanFrom(num, ctx, "-2^2", 0, Initial(), fuel)
            == Ok(Scan(AfterOperand(0), 0, [Opening(Round), SignSlot, PowSlot], [Operand, Operand], [a, a]))
  {
    var st1 := Scan(AfterOperator, 0, [Opening(Round), SignSlot], [], []);
    var last := Scan(AfterOperand(0), 0, [Opening(Round), SignSlot, PowSlot], [Operand, Operand], [a, a]);
    NegatedPowerBody(num, ctx, fuel, a);
    SignAtStart<V>();
    OperatorStep(num, ctx, "-2^2", 0, Initial(), fuel, Minus, st1, Ok(last));
  }

  /** "-2^2" after the sign. */
  lemma NegatedPowerBody<V>(num: Numerics<V>, ctx: Context<V>, fuel: nat, a: V)
    requires num.parse("2") == Some(a)
    ensures ScanFrom(num, ctx, "-2^2", 1, Scan(AfterOperator, 0, [Opening(Round), SignSlot], [], []), fuel)
            == Ok(Scan(AfterOperand(0), 0, [Opening(Round), SignSlot, PowSlot], [Operand, Operand], [a, a]))
  {
    var st1 := Scan(AfterOperator, 0, [Opening(Round), SignSlot], [], []);
    var st2 := Scan(AfterOperand(0), 0, [Opening(Round), SignSlot], [Operand], [a]);
    var last := Scan(AfterOperand(0), 0, [Opening(Round), SignSlot, PowSlot], [Operand, Operand], [a, a]);
    NegatedPowerTail(num, ctx, fuel, a);
    assert PushOperand(st1, a) == st2;
    DigitStep(num, ctx, "-2^2", 1, st1, fuel, a, Ok(last));
  }

  /** A leading '-' pushes '@' on the sentinel. */
  lemma SignAtStart<V>()
    ensures Operator(Initial<V>(), Minus) == Ok(Scan(AfterOperator, 0, [Opening(Round), SignSlot], [], []))
  {
    var st0 := Initial<V>();
    PushesAtOnce(st0, PowerOnly, Negate);
    assert st0.stack + [SignSlot] == [Opening(Round), SignSlot];
    assert Operator(st0, Minus) == PopThenPush(st0, PowerOnly, Negate);
  }

  /** "-2^2" after the sign and the first operand. */
  lemma NegatedPowerTail<V>(num: Numerics<V>, ctx: Context<V>, fuel: nat, a: V)
    requires num.parse("2") == Some(a)
    ensures ScanFrom(num, ctx, "-2^2", 2, Scan(AfterOperand(0), 0, [Opening(Round), SignSlot], [Operand], [a]), fuel)
            == Ok(Scan(AfterOperand(0), 0, [Opening(Round), SignSlot, PowSlot], [Operand, Operand], [a, a]))
  {
    var s := "-2^2";
    var st2 := Scan(AfterOperand(0), 0, [Opening(Round), SignSlot], [Operand], [a]);
    var st3 := Scan(AfterOperator, 0, [Opening(Round), SignSlot, PowSlot], [Operand], [a]);
    var last := Scan(AfterOperand(0), 0, [Opening(Round), SignSlot, PowSlot], [Operand, Operand], [a, a]);
    assert PushOperand(st3, a) == last;
    DigitStep(num, ctx, s, 3, st3, fuel, a, Ok(last));
    assert st2.stack + [PowSlot] == st3.stack;
    OperatorStep(num, ctx, s, 2, st2, fuel, Caret, st3, Ok(last));
  }

  /** "-2^2" is -(2^2). */
  lemma SignAppliesAfterPower<V>(num: Numerics<V>, ctx: Context<V>, fuel: nat, a: V)
    requires num.parse("2") == Some(a)
    ensures Evaluate(num, ctx, "-2^2", fuel) == Ok(num.neg(num.pow(a, a)))
  {
    NegatedPowerCompiles(num, ctx, fuel, a);
    var st := Scan(AfterOperand(0), 0, [Opening(Round), SignSlot, PowSlot], [Operand, Operand], [a, a]);
    var t := Neg(Node(Postfix.Pow, Leaf(a), Leaf(a)));
    NegatedPowerTree(num, a);
    EvaluateAsTree(num, ctx, "-2^2", fuel, st, t);
  }

  /** The end-of-input pops turn the scan of "-2^2" into the postfix form
      of -(2^2). */
  lemma NegatedPowerTree<V>(num: Numerics<V>, a: V)
    ensures var t := Neg(Node(Postfix.Pow, Leaf(a), Leaf(a)));
            && Flush([Opening(Round), SignSlot, PowSlot], [Operand, Operand]) == Ok(Emits(t))
            && Leaves(t) == [a, a] && Eval(num, t) == num.neg(num.pow(a, a))
  {
    var stack := [Opening(Round), SignSlot, PowSlot];
    var u := Node(Postfix.Pow, Leaf(a), Leaf(a));
    var t := Neg(u);
    FlushDrains(stack, [Operand, Operand]);
    assert stack[1..] == [SignSlot, PowSlot];
    assert Drain([SignSlot]) == [Apply(Negate)];
    assert [SignSlot, PowSlot][..1] == [SignSlot];
    assert Drain([SignSlot, PowSlot]) == [Apply(Binary(Postfix.Pow)), Apply(Negate)];
    assert Emits(u) == [Operand, Operand, Apply(Binary(Postfix.Pow))];
    assert Emits(t) == [Operand, Operand, Apply(Binary(Postfix.Pow)), Apply(Negate)];
    assert Leaves(u) == [a, a];
    assert Leaves(t) == [a, a];
    assert [Operand, Operand] + Drain(stack[1..]) == Emits(t);
    assert Eval(num, u) == num.pow(a, a);
  }

  /** "(2+3]": the closing brace pops the '+' and then meets a '(' of the
      other type. */
  lemma MismatchedBrackets<V>(num: Numerics<V>, ctx: Context<V>, fuel: nat, a: V, b: V)
    requires num.parse("2") == Some(a) && num.parse("3") == Some(b)
    ensures Evaluate(num, ctx, "(2+3]", fuel) == Err(Syntax(BracketMismatch))
  {
    var s := "(2+3]";
    var st0 := Initial<V>();
    var st1 := Scan(GroupStart, 1, [Opening(Round), Opening(Round)], [], []);
    assert st0.stack + [Opening(Round)] == st1.stack;
    assert OpenBrace(st0, Round) == Ok(st1);
    assert Classify(s[0]) == OpenC(Round);
    assert Token(num, ctx, s, 0, st0, fuel) == Ok((st1, 1));
    MismatchedTail(num, ctx, fuel, a, b);
    assert PushOperand(st1, a) == Scan(AfterOperand(1), 1, [Opening(Round), Opening(Round)], [Operand], [a]);
    DigitStep(num, ctx, s, 1, st1, fuel, a, Err(Syntax(BracketMismatch)));
    ScanStep(num, ctx, s, 0, st0, fuel, st1, 1, Err(Syntax(BracketMismatch)));
    assert !IsBlank(s) by {
      assert s[0] > ' ';
    }
  }

  /** "(2+3]" after the brace and the first operand. */
  lemma MismatchedTail<V>(num: Numerics<V>, ctx: Context<V>, fuel: nat, a: V, b: V)
    requires num.parse("3") == Some(b)
    ensures ScanFrom(num, ctx, "(2+3]", 2, Scan(AfterOperand(1), 1, [Opening(Round), Opening(Round)], [Operand], [a]), fuel)
            == Err(Syntax(BracketMismatch))
  {
    var s := "(2+3]";
    var st2 := Scan(AfterOperand(1), 1, [Opening(Round), Opening(Round)], [Operand], [a]);
    var st3 := Scan(AfterOperator, 1, [Opening(Round), Opening(Round), AddSlot], [Operand], [a]);
    var st4 := Scan(AfterOperand(1), 1, [Opening(Round), Opening(Round), AddSlot], [Operand, Operand], [a, b]);
    ClosingMeetsSquare(st4);
    assert Classify(s[4]) == CloseC(Square);
    assert Token(num, ctx, s, 4, st4, fuel) == Err(Syntax(BracketMismatch));
    assert PushOperand(st3, b) == st4;
    DigitStep(num, ctx, s, 3, st3, fuel, b, Err(Syntax(BracketMismatch)));
    PushesAtOnce(st2, Everything, Binary(Postfix.Add));
    assert st2.stack + [AddSlot] == st3.stack;
    OperatorStep(num, ctx, s, 2, st2, fuel, Plus, st3, Err(Syntax(BracketMismatch)));
  }

  /** The ']' of "(2+3]" pops the '+' and meets a '('. */
  lemma ClosingMeetsSquare<V>(st: Scan<V>)
    requires st.flags == AfterOperand(1) && st.stack == [Opening(Round), Opening(Round), AddSlot]
    ensures CloseBrace(st, Square) == Err(Syntax(BracketMismatch))
  {
    assert [Opening(Round), Opening(Round), AddSlot][..2] == [Opening(Round), Opening(Round)];
    UnwindStops([Opening(Round), Opening(Round)], st.postfix + [Apply(Binary(Postfix.Add))], Everything);
    assert Unwind(st.stack, st.postfix, Everything).0 == [Opening(Round), Opening(Round)];
  }

  /** The call scan of "f()" finds the parentheses and one empty argument
      between them. */
  lemma EmptyCallScan()
    ensures CallScan("f()", 1) == Some([1, 2])
    ensures Increasing([1, 2]) && Arguments("f()", [1, 2]) == [""]
  {
    var s := "f()";
    assert [1] + [3 - 1] == [1, 2];
    assert CallLoop(s, 3, 0, [1]) == Some([1, 2]);
    assert CallLoop(s, 2, 1, [1]) == Some([1, 2]);
    assert Increasing([1, 2]) by {
      forall a, b | 0 <= a < b < 2
        ensures [1, 2][a] < [1, 2][b]
      {
      }
    }
    assert [1, 2][1..] == [2] && Arguments(s, [2]) == [];
    assert s[2..2] == "";
    assert Arguments(s, [1, 2]) == [s[2..2]] + Arguments(s, [2]);
  }

  /** "f()": the call scan yields one empty argument, and evaluating the
      empty text is refused, so no formula can be called with no
      arguments. */
  lemma EmptyCallIsRefused<V>(num: Numerics<V>, ctx: Context<V>, fuel: nat)
    requires fuel > 0
    ensures Evaluate(num, ctx, "f()", fuel) == Err(Syntax(EmptyInput))
  {
    var s := "f()";
    assert Classify(s[0]) == NameC;
    assert NameRunEnd(s, 1) == 1;
    EmptyCallScan();
    assert Evaluate(num, ctx, "", fuel - 1) == Err(Syntax(EmptyInput));
    assert EvalArgs(num, ctx, [""], fuel - 1) == Err(Syntax(EmptyInput));
    assert NamedOperand(num, ctx, s, 0, fuel) == Err(Syntax(EmptyInput));
    assert Token(num, ctx, s, 0, Initial(), fuel) == Err(Syntax(EmptyInput));
    assert !IsBlank(s) by {
      assert s[0] > ' ';
    }
  }

  /** addFormula("f", 1, "|0|*|0|"), then f(v): the body evaluated is the
      printed v, in parentheses, squared. */
  lemma SquareFormula<V>(num: Numerics<V>, ctx: Context<V>, v: V, fuel: nat)
    ensures var ctx' := AddFormula(ctx, "f", 1, "|0|*|0|").1;
            SolveFormula(num, ctx', "f", [v], fuel)
            == Evaluate(num, ctx', "(" + num.show(v) + ")*(" + num.show(v) + ")", fuel)
  {
    forall x | 0 <= x < |Catalog|
      ensures Key(x) != FormulaId("f", 1)
    {
      if Key(x) == FormulaId("f", 1) {
        FormulaIdInjective(Catalog[x].0, Arity(Catalog[x].1), "f", 1);
      }
    }
    assert IsIdentifier("f");
    DefinedFormulaIsUsed(num, ctx, "f", "|0|*|0|", [v], fuel);
    assert Shown(num, [v]) == [num.show(v)];
    SquareTemplate(num.show(v));
  }

  /** A template may open with a number: in "2*|0|" the argument's text,
      in parentheses, takes the placeholder's place after "2*". */
  lemma LeadingNumberTemplate(t: string)
    requires '|' !in t
    ensures Substitute("2*|0|", [t]) == "2*(" + t + ")"
  {
    var parts := [Lit("2*"), Hole(0)];
    assert WellFormed(parts) by {
      assert parts[1..][1..] == [];
    }
    FirstPlaceholders();
    assert Render(parts) == "2*|0|" by {
      assert parts[1..][1..] == [];
    }
    SubstituteFills(parts, [t]);
    assert Fill(parts, [t]) == "2*" + Wrapped(t) by {
      assert parts[1..][1..] == [];
    }
  }

  /** Replacing "|0|" in "|1|0|" finds it at the bar that closes "|1|". */
  lemma StraddlingReplacement()
    ensures ReplaceAll("|1|0|", "|0|", Wrapped("a")) == "|1(a)"
  {
    var u := "|1" + "|0|"[..2];
    assert |u| == 4 && u[1] == '1';
    forall p: nat
      ensures !At(u, "|0|", p)
    {
      if p + 3 <= |u| {
        assert u[p..p + 3][0] == u[p] && u[p..p + 3][1] == u[p + 1];
      }
    }
    assert "|1|0|" == "|1" + "|0|" + "";
    InsertsAtFirst("|1", "", "|0|", Wrapped("a"));
  }

  /** What is left of "|1|" after the straddling replacement is no
      placeholder. */
  lemma BrokenPlaceholder()
    ensures !Occurs("|1(a)", "|1|")
  {
    var u := "|1(a)";
    assert !At(u, "|1|", 0) by {
      assert u[..3][2] != "|1|"[2];
    }
    forall p: nat | p > 0
      ensures !At(u, "|1|", p)
    {
      if p + 3 <= |u| {
        assert u[p..p + 3][0] == u[p] != '|';
      }
    }
  }

  /** In "|1|0|" the placeholder "|0|" is found first, and it takes the bar
      that closes "|1|": the first argument's placeholder is broken before
      its turn comes, so its text never appears. */
  lemma OverlappingPlaceholders()
    ensures Substitute("|1|0|", ["a", "b"]) == "|1(a)"
  {
    FirstPlaceholders();
    StraddlingReplacement();
    BrokenPlaceholder();
    ReplaceAbsent("|1(a)", "|1|", Wrapped("b"));
    assert Substitute("|1|0|", ["a", "b"]) == SubstituteFrom("|1(a)", ["a", "b"], 1);
  }


}

=== FILE: lexer.dfy ===
/** Character classes, the spans of literals and names, and identifier
    validation (src/main/java/io/colocasian/math/Expression.java, isNum,
    isVar, the literal and name scans of evaluate, and the name check shared
    by setVariable and addFormula). */
module Lexer {
  import opened Decimal

  /** A character that may be part of a numeric literal: a digit or '.'. */
  predicate IsNum(c: char) {
    ('0' <= c <= '9') || c == '.'
  }

  /** A character that may start a name: an ASCII letter or '_'. */
  predicate IsVar(c: char) {
    ('A' <= c <= 'Z') || ('a' <= c <= 'z') || c == '_'
  }

  /** A character that may continue a name. */
  predicate IsNameChar(c: char) {
    IsVar(c) || IsDigit(c)
  }

  predicate IsExponentMark(c: char) {
    c == 'e' || c == 'E'
  }

  predicate IsSign(c: char) {
    c == '+' || c == '-'
  }

  /** The text trims to the empty string: every character is at most U+0020. */
  predicate IsBlank(s: string) {
    forall k :: 0 <= k < |s| ==> s[k] <= ' '
  }

  /** Every character of s[a..b] is numeric. */
  predicate AllNum(s: string, a: nat, b: nat)
    requires a <= b <= |s|
  {
    forall k :: a <= k < b ==> IsNum(s[k])
  }

  /** s[a..b] holds exponent digits, optionally preceded by one sign. */
  predicate IsExponentTail(s: string, a: nat, b: nat)
    requires a <= b <= |s|
  {
    AllNum(s, a, b) || (a < b && IsSign(s[a]) && AllNum(s, a + 1, b))
  }

  /** s[i..r] has the shape of a literal: a run of numeric characters
      starting with one, optionally followed by an exponent marker, an
      optional sign and a second, possibly empty, run of numeric
      characters. */
  predicate IsLiteral(s: string, i: nat, r: nat)
    requires i <= r <= |s|
  {
    && i < r
    && IsNum(s[i])
    && (|| AllNum(s, i, r)
        || exists m :: i < m < r && AllNum(s, i, m) && IsExponentMark(s[m]) && IsExponentTail(s, m + 1, r))
  }

  /** A well-formed variable or formula name. */
  predicate IsIdentifier(name: string) {
    && |name| > 0
    && IsVar(name[0])
    && forall k :: 1 <= k < |name| ==> IsNameChar(name[k])
  }

  /** End of the maximal run of numeric characters starting at j. */
  function NumRunEnd(s: string, j: nat): (r: nat)
    requires j <= |s|
    ensures j <= r <= |s|
    ensures forall k :: j <= k < r ==> IsNum(s[k])
    ensures r == |s| || !IsNum(s[r])
    decreases |s| - j
  {
    if j < |s| && IsNum(s[j]) then NumRunEnd(s, j + 1) else j
  }

  /** End of the maximal run of name characters starting at j. */
  function NameRunEnd(s: string, j: nat): (r: nat)
    requires j <= |s|
    ensures j <= r <= |s|
    ensures forall k :: j <= k < r ==> IsNameChar(s[k])
    ensures r == |s| || !IsNameChar(s[r])
    decreases |s| - j
  {
    if j < |s| && IsNameChar(s[j]) then NameRunEnd(s, j + 1) else j
  }

  /** End of the numeric literal that starts at i: the run of numeric
      characters, then, after an 'e' or 'E', an optional sign and a second
      run. */
  function LiteralEnd(s: string, i: nat): (r: nat)
    requires i < |s| && IsNum(s[i])
    ensures i < r <= |s|
  {
    var j := NumRunEnd(s, i + 1);
    if j < |s| && IsExponentMark(s[j]) then
      var k := if j + 1 < |s| && IsSign(s[j + 1]) then j + 2 else j + 1;
      NumRunEnd(s, k)
    else
      j
  }

  /** The literal scan takes the longest prefix of the rest of the input that
      has the shape of a literal. */
  lemma LiteralSpan(s: string, i: nat)
    requires i < |s| && IsNum(s[i])
    ensures IsLiteral(s, i, LiteralEnd(s, i))
    ensures LiteralEnd(s, i) == |s| || !IsLiteral(s, i, LiteralEnd(s, i) + 1)
  {
    var j := NumRunEnd(s, i + 1);
    var e := LiteralEnd(s, i);
    if j < |s| && IsExponentMark(s[j]) {
      var k := if j + 1 < |s| && IsSign(s[j + 1]) then j + 2 else j + 1;
      assert e == NumRunEnd(s, k);
      ExponentLiteralSpan(s, i, j, k, e);
    } else {
      assert e == j;
      PlainLiteralSpan(s, i, e);
    }
  }

  lemma PlainLiteralSpan(s: string, i: nat, j: nat)
    requires i < j <= |s| && IsNum(s[i])
    requires AllNum(s, i + 1, j)
    requires j == |s| || (!IsNum(s[j]) && !IsExponentMark(s[j]))
    ensures IsLiteral(s, i, j)
    ensures j == |s| || !IsLiteral(s, i, j + 1)
  {
    if j < |s| {
      assert !AllNum(s, i, j + 1) by {
        assert !IsNum(s[j]);
      }
      forall m | i < m < j + 1 && AllNum(s, i, m)
        ensures !IsExponentMark(s[m])
      {
        if m < j {
          assert IsNum(s[m]);
        }
      }
    }
  }

  lemma ExponentLiteralSpan(s: string, i: nat, j: nat, k: nat, r: nat)
    requires i < j < k <= r <= |s| && IsNum(s[i])
    requires AllNum(s, i + 1, j) && IsExponentMark(s[j])
    requires k == (if j + 1 < |s| && IsSign(s[j + 1]) then j + 2 else j + 1)
    requires AllNum(s, k, r) && (r == |s| || !IsNum(s[r]))
    ensures IsLiteral(s, i, r)
    ensures r == |s| || !IsLiteral(s, i, r + 1)
  {
    assert AllNum(s, i, j);
    assert IsExponentTail(s, j + 1, r);
    if r < |s| {
      assert !AllNum(s, i, r + 1) by {
        assert !IsNum(s[r]);
      }
      forall m | i < m < r + 1 && AllNum(s, i, m) && IsExponentMark(s[m])
        ensures !IsExponentTail(s, m + 1, r + 1)
      {
        if m < j {
          assert IsNum(s[m]);
        }
        assert !AllNum(s, j + 1, r + 1) by {
          assert !IsNum(s[r]);
        }
        if j + 1 < r {
          assert !AllNum(s, j + 2, r + 1) by {
            assert !IsNum(s[r]);
          }
        }
      }
    }
  }

  /** The tail of a name, from position i on, holds only name characters
      (the loop of the name check, one step per character). */
  function TailValid(name: string, i: nat): (ok: bool)
    requires 1 <= i <= |name|
    ensures ok <==> forall k :: i <= k < |name| ==> IsNameChar(name[k])
    decreases |name| - i
  {
    if i == |name| then true
    else if !IsNameChar(name[i]) then false
    else TailValid(name, i + 1)
  }

  /** The name check of setVariable and addFormula. */
  function NameCheck(name: string): (ok: bool)
    ensures ok <==> IsIdentifier(name)
  {
    if |name| == 0 || !IsVar(name[0]) then false else TailValid(name, 1)
  }

  /** The name scanned at a name-start character is a well-formed identifier. */
  lemma ScannedNameIsIdentifier(s: string, i: nat)
    requires i < |s| && IsVar(s[i])
    ensures IsIdentifier(s[i..NameRunEnd(s, i + 1)])
  {
    var j := NameRunEnd(s, i + 1);
    var name := s[i..j];
    forall k | 1 <= k < |name|
      ensures IsNameChar(name[k])
    {
      assert name[k] == s[i + k];
    }
  }

  /** Scanning a whole identifier from its start consumes all of it. */
  lemma IdentifierScansWhole(name: string)
    requires IsIdentifier(name)
    ensures NameRunEnd(name, 1) == |name|
  {
  }
}

=== FILE: numbers.dfy ===
/** The number domain of the evaluator.  The source computes with IEEE-754
    doubles and the Math library; this model keeps every numeric operation
    uninterpreted, as a field of a record the caller supplies, so that the
    properties proved hold for any such operations. */
module Numbers {
  import opened Outcomes

  /** The one-argument functions of the built-in catalog. */
  datatype UnaryFn =
    | Sin | Cos | Tan | Asin | Acos | Atan
    | Exp | Expm1 | Log | Log10 | Log1p
    | Sqrt | Cbrt | Signum

  /** The operations on values of type V that the evaluator uses. */
  datatype Numerics<!V> = Numerics(
    parse: string -> Option<V>,  // Double.parseDouble; None where it throws NumberFormatException
    show: V -> string,           // Double.toString
    neg: V -> V,                 // unary minus
    add: (V, V) -> V,
    sub: (V, V) -> V,
    mul: (V, V) -> V,
    div: (V, V) -> V,
    pow: (V, V) -> V,            // Math.pow
    unary: (UnaryFn, V) -> V,    // Math.sin, Math.log, ..., Math.signum
    hypot: (V, V) -> V           // Math.hypot
  )
}

=== FILE: outcomes.dfy ===
/** Failure kinds of the expression evaluator and the failure-compatible
    result type that carries them.

    The evaluator declares two exceptions: ArithmeticException for syntax
    errors and NoSuchElementException for undefined symbols.  The remaining
    kinds are exceptions the code can raise without declaring them
    (NumberFormatException from the literal parser, EmptyStackException from
    the postfix machine), plus the recursion bound of this model. */
module Outcomes {

  /** Which syntax check rejected the input (each one an ArithmeticException). */
  datatype SyntaxKind =
    | EmptyInput          // the expression is blank
    | UnexpectedOpening   // an opening brace where none is expected
    | UnexpectedClosing   // a closing brace where none is expected
    | BracketMismatch     // a closing brace of another type than its opening one
    | UnexpectedNumber    // a literal where no operand is expected
    | UnexpectedName      // a variable or call where no operand is expected
    | UnexpectedBinary    // '^', '*' or '/' where no binary operator is expected
    | UnexpectedOperator  // '+' or '-' where neither a binary nor a prefix operator is expected
    | UnexpectedCharacter // a character outside the expression alphabet
    | UnbalancedBraces    // braces left open at the end of the input
    | UnclosedCall        // a call whose argument list has no matching ')'

  /** What kind of symbol a lookup failed to find. */
  datatype Symbol = Variable | Function

  datatype Error =
    | Syntax(kind: SyntaxKind)   // ArithmeticException
    | Undefined(symbol: Symbol)  // NoSuchElementException from a lookup
    | MalformedNumber            // NumberFormatException from the literal parser
    | EmptyStack                 // EmptyStackException from a pop or peek
    | QueueExhausted             // NoSuchElementException from the operand queue
    | OutOfFuel                  // the model's bound on nested evaluations

  datatype Option<+T> = None | Some(value: T)

  /** Either a value or the error that aborted the computation. */
  datatype Result<+T> = Ok(value: T) | Err(error: Error) {

    predicate IsFailure() {
      Err?
    }

    function PropagateFailure<U>(): Result<U>
      requires Err?
    {
      Err(error)
    }

    function Extract(): T
      requires Ok?
    {
      value
    }
  }
}

=== FILE: postfix.dfy ===
/** The postfix stack machine (src/main/java/io/colocasian/math/Expression.java,
    solvePostfix), the stack-height bookkeeping that decides when it can run
    without underflow, and an expression-tree reference that fixes what the
    machine computes. */
module Postfix {
  import opened Outcomes
  import opened Numbers

  datatype BinOp = Add | Sub | Mul | Div | Pow

  /** An operator: the internal unary negation '@' or a binary operator. */
  datatype Op = Negate | Binary(bin: BinOp)

  /** An entry of the postfix stream: the operand marker ('\0' in the
      source), which stands for the next value of the operand queue, or an
      operator. */
  datatype Emit = Operand | Apply(op: Op)

  function Combine<V>(num: Numerics<V>, op: BinOp, a: V, b: V): V {
    match op
    case Add => num.add(a, b)
    case Sub => num.sub(a, b)
    case Mul => num.mul(a, b)
    case Div => num.div(a, b)
    case Pow => num.pow(a, b)
  }

  /** The machine's value stack (top last) and how many queued operands it
      has taken. */
  datatype Machine<V> = Machine(stack: seq<V>, next: nat)

  /** One iteration of the machine's loop.  With a queued value left for
      an operand marker, it succeeds exactly when the height bookkeeping
      (Grow) allows the entry, ends at the height Grow gives, and leaves the
      values below the one it writes alone; an operand marker takes the
      next queued value. */
  function Step<V>(num: Numerics<V>, m: Machine<V>, e: Emit, q: seq<V>): (r: Result<Machine<V>>)
    ensures (e == Operand ==> m.next < |q|) ==> (r.Ok? <==> Grow(|m.stack|, e).Some?)
    ensures r.Err? ==> r.error == (if e == Operand then QueueExhausted else EmptyStack)
    ensures r.Ok? ==>
              && Grow(|m.stack|, e) == Some(|r.value.stack|)
              && r.value.stack[..|r.value.stack| - 1] == m.stack[..|r.value.stack| - 1]
              && r.value.next == m.next + (if e == Operand then 1 else 0)
    ensures r.Ok? && e == Operand ==> m.next < |q| && r.value.stack[|r.value.stack| - 1] == q[m.next]
  {
    match e
    case Operand =>
      if m.next < |q| then Ok(Machine(m.stack + [q[m.next]], m.next + 1)) else Err(QueueExhausted)
    case Apply(Negate) =>
      if |m.stack| == 0 then Err(EmptyStack)
      else Ok(m.(stack := m.stack[..|m.stack| - 1] + [num.neg(m.stack[|m.stack| - 1])]))
    case Apply(Binary(op)) =>
      if |m.stack| < 2 then Err(EmptyStack)
      else
        var n := |m.stack|;
        Ok(m.(stack := m.stack[..n - 2] + [Combine(num, op, m.stack[n - 2], m.stack[n - 1])]))
  }

  /** Runs the machine from state m over the stream p, front to back,
      with operand queue q. */
  function Run<V>(num: Numerics<V>, m: Machine<V>, p: seq<Emit>, q: seq<V>): Result<Machine<V>>
    decreases |p|
  {
    if p == [] then Ok(m)
    else
      match Step(num, m, p[0], q)
      case Err(e) => Err(e)
      case Ok(m') => Run(num, m', p[1..], q)
  }

  /** The machine started empty. */
  function Exec<V>(num: Numerics<V>, p: seq<Emit>, q: seq<V>): Result<Machine<V>> {
    Run(num, Machine([], 0), p, q)
  }

  /** Running p and then one more entry is one more step after p. */
  lemma {:induction false} RunSnoc<V>(num: Numerics<V>, m: Machine<V>, p: seq<Emit>, e: Emit, q: seq<V>)
    ensures Run(num, m, p + [e], q)
         == (if Run(num, m, p, q).Ok? then Step(num, Run(num, m, p, q).value, e, q) else Run(num, m, p, q))
    decreases |p|
  {
    if p == [] {
      assert [e][1..] == [];
    } else {
      assert (p + [e])[0] == p[0];
      assert (p + [e])[1..] == p[1..] + [e];
      var s := Step(num, m, p[0], q);
      if s.Ok? {
        RunSnoc(num, s.value, p[1..], e, q);
      }
    }
  }

  /** Number of operand markers in a stream. */
  function Operands(p: seq<Emit>): nat
    decreases |p|
  {
    if p == [] then 0 else Operands(p[..|p| - 1]) + (if p[|p| - 1] == Operand then 1 else 0)
  }

  /** Stack height after one entry, or None if the entry underflows it. */
  function Grow(h: nat, e: Emit): Option<nat> {
    match e
    case Operand => Some(h + 1)
    case Apply(Negate) => if h >= 1 then Some(h) else None
    case Apply(Binary(_)) => if h >= 2 then Some(h - 1) else None
  }

  /** Stack height after the whole stream, or None if some entry underflows. */
  function Depth(p: seq<Emit>): Option<nat>
    decreases |p|
  {
    if p == [] then Some(0)
    else
      match Depth(p[..|p| - 1])
      case None => None
      case Some(h) => Grow(h, p[|p| - 1])
  }

  /** With enough queued operands, the machine runs to the end exactly when
      the stream never underflows, and then its stack has Depth(p) values
      and it has taken one queued value per operand marker. */
  lemma {:induction false} ExecFollowsDepth<V>(num: Numerics<V>, p: seq<Emit>, q: seq<V>)
    ensures Operands(p) <= |q| ==> (Exec(num, p, q).Ok? <==> Depth(p).Some?)
    ensures Operands(p) <= |q| && Exec(num, p, q).Ok? ==>
              |Exec(num, p, q).value.stack| == Depth(p).value && Exec(num, p, q).value.next == Operands(p)
    ensures Operands(p) <= |q| && Exec(num, p, q).Err? ==> Exec(num, p, q).error == EmptyStack
    decreases |p|
  {
    if p != [] {
      var p' := p[..|p| - 1];
      assert p == p' + [p[|p| - 1]];
      RunSnoc(num, Machine([], 0), p', p[|p| - 1], q);
      ExecFollowsDepth(num, p', q);
    }
  }

  /** solvePostfix: runs the machine and answers the top of the stack. */
  function SolvePostfix<V>(num: Numerics<V>, p: seq<Emit>, q: seq<V>): (r: Result<V>)
    ensures Operands(p) <= |q| ==> (r.Ok? <==> Depth(p).Some? && Depth(p).value >= 1)
    ensures Operands(p) <= |q| && r.Err? ==> r.error == EmptyStack
    ensures r.Ok? ==> Exec(num, p, q).Ok? && var m := Exec(num, p, q).value; |m.stack| > 0 && r.value == m.stack[|m.stack| - 1]
  {
    ExecFollowsDepth(num, p, q);
    var m :- Exec(num, p, q);
    if |m.stack| == 0 then Err(EmptyStack) else Ok(m.stack[|m.stack| - 1])
  }

  /** Reference semantics: expression trees and their direct evaluation. */
  datatype Tree<V> = Leaf(value: V) | Neg(arg: Tree<V>) | Node(op: BinOp, left: Tree<V>, right: Tree<V>)

  function Eval<V>(num: Numerics<V>, t: Tree<V>): V {
    match t
    case Leaf(v) => v
    case Neg(a) => num.neg(Eval(num, a))
    case Node(op, l, r) => Combine(num, op, Eval(num, l), Eval(num, r))
  }

  /** Postfix form of a tree: operands before their operator. */
  function Emits<V>(t: Tree<V>): seq<Emit> {
    match t
    case Leaf(_) => [Operand]
    case Neg(a) => Emits(a) + [Apply(Negate)]
    case Node(op, l, r) => Emits(l) + Emits(r) + [Apply(Binary(op))]
  }

  /** The leaves of a tree, left to right: the operand queue of its postfix form. */
  function Leaves<V>(t: Tree<V>): seq<V> {
    match t
    case Leaf(v) => [v]
    case Neg(a) => Leaves(a)
    case Node(_, l, r) => Leaves(l) + Leaves(r)
  }

  /** Running a stream in two parts: the second part starts from the
      machine the first part left, and a failure in the first part ends
      the run. */
  lemma {:induction false} RunAppend<V>(num: Numerics<V>, m: Machine<V>, p1: seq<Emit>, p2: seq<Emit>, q: seq<V>)
    ensures Run(num, m, p1 + p2, q)
         == (if Run(num, m, p1, q).Ok? then Run(num, Run(num, m, p1, q).value, p2, q) else Run(num, m, p1, q))
    decreases |p1|
  {
    if p1 == [] {
      assert p1 + p2 == p2;
    } else {
      assert (p1 + p2)[0] == p1[0];
      assert (p1 + p2)[1..] == p1[1..] + p2;
      var s := Step(num, m, p1[0], q);
      if s.Ok? {
        RunAppend(num, s.value, p1[1..], p2, q);
      }
    }
  }

  /** Running the postfix form of t, with t's leaves next in the queue,
      pushes exactly Eval(t): the machine applies each binary operator to
      the second-from-top value as left operand and the top as right. */
  lemma {:induction false} RunTree<V>(num: Numerics<V>, m: Machine<V>, t: Tree<V>, q: seq<V>)
    requires m.next + |Leaves(t)| <= |q| && q[m.next..m.next + |Leaves(t)|] == Leaves(t)
    ensures Run(num, m, Emits(t), q) == Ok(Machine(m.stack + [Eval(num, t)], m.next + |Leaves(t)|))
    decreases t, 2
  {
    match t
    case Leaf(v) =>
      RunLeaf(num, m, v, q);
    case Neg(a) =>
      RunNegTree(num, m, a, q);
    case Node(op, l, r) =>
      RunNodeTree(num, m, op, l, r, q);
  }

  lemma RunLeaf<V>(num: Numerics<V>, m: Machine<V>, v: V, q: seq<V>)
    requires m.next + 1 <= |q| && q[m.next..m.next + 1] == [v]
    ensures Run(num, m, [Operand], q) == Ok(Machine(m.stack + [v], m.next + 1))
  {
    assert q[m.next] == q[m.next..m.next + 1][0] == v;
    assert [Operand][1..] == [];
  }

  lemma {:induction false} RunNegTree<V>(num: Numerics<V>, m: Machine<V>, a: Tree<V>, q: seq<V>)
    requires m.next + |Leaves(a)| <= |q| && q[m.next..m.next + |Leaves(a)|] == Leaves(a)
    ensures Run(num, m, Emits(a) + [Apply(Negate)], q)
         == Ok(Machine(m.stack + [num.neg(Eval(num, a))], m.next + |Leaves(a)|))
    decreases Neg(a), 1
  {
    RunTree(num, m, a, q);
    RunSnoc(num, m, Emits(a), Apply(Negate), q);
    var s := m.stack + [Eval(num, a)];
    assert s[..|s| - 1] == m.stack;
  }

  lemma {:induction false} RunNodeTree<V>(num: Numerics<V>, m: Machine<V>, op: BinOp, l: Tree<V>, r: Tree<V>, q: seq<V>)
    requires m.next + |Leaves(l)| + |Leaves(r)| <= |q|
    requires q[m.next..m.next + |Leaves(l)| + |Leaves(r)|] == Leaves(l) + Leaves(r)
    ensures Run(num, m, Emits(l) + Emits(r) + [Apply(Binary(op))], q)
         == Ok(Machine(m.stack + [Combine(num, op, Eval(num, l), Eval(num, r))],
                       m.next + |Leaves(l)| + |Leaves(r)|))
    decreases Node(op, l, r), 1
  {
    RunOperands(num, m, op, l, r, q);
    RunSnoc(num, m, Emits(l) + Emits(r), Apply(Binary(op)), q);
    var s := m.stack + [Eval(num, l)] + [Eval(num, r)];
    assert s[..|s| - 2] == m.stack;
  }

  /** The two operands of a binary node, run one after the other. */
  lemma {:induction false} RunOperands<V>(num: Numerics<V>, m: Machine<V>, op: BinOp, l: Tree<V>, r: Tree<V>, q: seq<V>)
    requires m.next + |Leaves(l)| + |Leaves(r)| <= |q|
    requires q[m.next..m.next + |Leaves(l)| + |Leaves(r)|] == Leaves(l) + Leaves(r)
    ensures Run(num, m, Emits(l) + Emits(r), q)
         == Ok(Machine(m.stack + [Eval(num, l)] + [Eval(num, r)], m.next + |Leaves(l)| + |Leaves(r)|))
    decreases Node(op, l, r), 0, 1
  {
    QueueSplit(q, m.next, Leaves(l), Leaves(r));
    RunTree(num, m, l, q);
    RunRight(num, m, op, l, r, q);
  }

  /** The right operand, run after the left one has pushed its value. */
  lemma {:induction false} RunRight<V>(num: Numerics<V>, m: Machine<V>, op: BinOp, l: Tree<V>, r: Tree<V>, q: seq<V>)
    requires Run(num, m, Emits(l), q) == Ok(Machine(m.stack + [Eval(num, l)], m.next + |Leaves(l)|))
    requires m.next + |Leaves(l)| + |Leaves(r)| <= |q|
    requires q[m.next + |Leaves(l)|..m.next + |Leaves(l)| + |Leaves(r)|] == Leaves(r)
    ensures Run(num, m, Emits(l) + Emits(r), q)
         == Ok(Machine(m.stack + [Eval(num, l)] + [Eval(num, r)], m.next + |Leaves(l)| + |Leaves(r)|))
    decreases Node(op, l, r), 0, 0
  {
    var m1 := Machine(m.stack + [Eval(num, l)], m.next + |Leaves(l)|);
    var m2 := Machine(m.stack + [Eval(num, l)] + [Eval(num, r)], m.next + |Leaves(l)| + |Leaves(r)|);
    RunTree(num, m1, r, q);
    assert Run(num, m1, Emits(r), q) == Ok(m2);
    RunThrough(num, m, Emits(l), Emits(r), q, m1, m2);
  }

  /** Two stream parts that succeed one after the other. */
  lemma RunThrough<V>(num: Numerics<V>, m: Machine<V>, p1: seq<Emit>, p2: seq<Emit>, q: seq<V>, m1: Machine<V>, m2: Machine<V>)
    requires Run(num, m, p1, q) == Ok(m1) && Run(num, m1, p2, q) == Ok(m2)
    ensures Run(num, m, p1 + p2, q) == Ok(m2)
  {
    RunAppend(num, m, p1, p2, q);
  }

  lemma QueueSplit<V>(q: seq<V>, k: nat, xs: seq<V>, ys: seq<V>)
    requires k + |xs| + |ys| <= |q| && q[k..k + |xs| + |ys|] == xs + ys
    ensures q[k..k + |xs|] == xs
    ensures q[k + |xs|..k + |xs| + |ys|] == ys
  {
    assert q[k..k + |xs|] == q[k..k + |xs| + |ys|][..|xs|];
    assert q[k + |xs|..k + |xs| + |ys|] == q[k..k + |xs| + |ys|][|xs|..];
  }

  /** The machine computes the value of any tree from its postfix form. */
  lemma PostfixOfTree<V>(num: Numerics<V>, t: Tree<V>)
    ensures SolvePostfix(num, Emits(t), Leaves(t)) == Ok(Eval(num, t))
  {
    assert Leaves(t)[0..|Leaves(t)|] == Leaves(t);
    RunTree(num, Machine([], 0), t, Leaves(t));
    assert [] + [Eval(num, t)] == [Eval(num, t)];
    assert Exec(num, Emits(t), Leaves(t)) == Ok(Machine([Eval(num, t)], |Leaves(t)|));
  }
}

=== FILE: properties.dfy ===
/** Properties of the whole evaluator
    (src/main/java/io/colocasian/math/Expression.java): the scan keeps its
    invariant over any input, a closed scan succeeds exactly when it ended
    after an operand, and the context operations interact with evaluation
    as the source promises. */
module Properties {
  import opened Outcomes
  import opened Numbers
  import opened Lexer
  import opened Registry
  import opened Postfix
  import opened Shunting
  import opened Discipline
  import opened Calls
  import opened Templates
  import opened Builtins
  import opened Evaluator

  /** The expectation table, one row per flag shape. */
  lemma ExpectationTable(k: CharClass, lvl: int)
    ensures Admits(AfterOperand(lvl), k) <==> k.OpC? || (k.CloseC? && lvl > 0) || k == Space
    ensures Admits(AfterOperator, k) <==> k.OpenC? || k == NumC || k == NameC || k == Space
    ensures Admits(GroupStart, k) <==>
              k.OpenC? || k == NumC || k == NameC || k == OpC(Plus) || k == OpC(Minus) || k == Space
  {
  }

  /** What a successful turn of the scan loop does to the state, by the
      class of the character it starts at: a brace or an operator moves
      the state as the matching handler does, a literal, a variable or a
      call pushes one operand, a blank leaves the state alone, and a stray
      character never succeeds. */
  lemma TokenMoves<V>(num: Numerics<V>, ctx: Context<V>, s: string, i: nat, st: Scan<V>, fuel: nat)
    requires i < |s| && Token(num, ctx, s, i, st, fuel).Ok?
    ensures var st' := Token(num, ctx, s, i, st, fuel).value.0;
            match Classify(s[i])
            case OpenC(b) => OpenBrace(st, b) == Ok(st')
            case CloseC(b) => CloseBrace(st, b) == Ok(st')
            case NumC => st.flags.operand && |st'.queue| > 0 && st' == PushOperand(st, st'.queue[|st'.queue| - 1])
            case NameC => st.flags.operand && |st'.queue| > 0 && st' == PushOperand(st, st'.queue[|st'.queue| - 1])
            case OpC(sym) => Operator(st, sym) == Ok(st')
            case Space => st' == st
            case Stray => false
  {
    var st' := Token(num, ctx, s, i, st, fuel).value.0;
    match Classify(s[i])
    case NumC =>
      var v := LiteralOperand(num, s, i).value.0;
      assert st' == PushOperand(st, v);
      assert st'.queue[|st'.queue| - 1] == v;
    case NameC =>
      var v := NamedOperand(num, ctx, s, i, fuel).value.0;
      assert st' == PushOperand(st, v);
      assert st'.queue[|st'.queue| - 1] == v;
    case _ =>
  }

  /** One turn of the scan loop keeps the invariant. */
  lemma TokenKeepsInv<V>(num: Numerics<V>, ctx: Context<V>, s: string, i: nat, st: Scan<V>, fuel: nat)
    requires i < |s| && Inv(st) && Token(num, ctx, s, i, st, fuel).Ok?
    ensures Inv(Token(num, ctx, s, i, st, fuel).value.0)
  {
    TokenMoves(num, ctx, s, i, st, fuel);
    var st' := Token(num, ctx, s, i, st, fuel).value.0;
    match Classify(s[i])
    case OpenC(b) =>
      OpenBraceKeeps(st, b);
    case CloseC(b) =>
      CloseBraceKeeps(st, b);
    case NumC =>
      PushOperandKeeps(st, st'.queue[|st'.queue| - 1]);
    case NameC =>
      PushOperandKeeps(st, st'.queue[|st'.queue| - 1]);
    case OpC(sym) =>
      OperatorKeeps(st, sym);
    case Space =>
    case Stray =>
  }

  /** The scan loop keeps the invariant to the end of the input. */
  lemma {:induction false} ScanKeepsInv<V>(num: Numerics<V>, ctx: Context<V>, s: string, i: nat, st: Scan<V>, fuel: nat)
    requires i <= |s| && Inv(st) && ScanFrom(num, ctx, s, i, st, fuel).Ok?
    ensures Inv(ScanFrom(num, ctx, s, i, st, fuel).value)
    decreases |s| - i
  {
    if i < |s| {
      var next := Token(num, ctx, s, i, st, fuel).value;
      TokenKeepsInv(num, ctx, s, i, st, fuel);
      ScanKeepsInv(num, ctx, s, next.1, next.0, fuel);
    }
  }

  /** An expression whose scan closes every brace evaluates exactly when it
      ends after an operand; then the postfix machine ends with one value
      and has used every queued operand.  One that ends in an operator or a
      sign fails on the machine's empty stack, since the scan does not
      check for it. */
  lemma EvaluateAtEnd<V>(num: Numerics<V>, ctx: Context<V>, s: string, fuel: nat)
    requires !IsBlank(s) && ScanFrom(num, ctx, s, 0, Initial(), fuel).Ok?
    requires ScanFrom(num, ctx, s, 0, Initial(), fuel).value.lvl == 0
    ensures var st := ScanFrom(num, ctx, s, 0, Initial(), fuel).value;
            && (Evaluate(num, ctx, s, fuel).Ok? <==> st.flags == AfterOperand(0))
            && (Evaluate(num, ctx, s, fuel).Err? ==> Evaluate(num, ctx, s, fuel).error == EmptyStack)
            && Flush(st.stack, st.postfix).Ok?
            && (st.flags == AfterOperand(0) ==>
                  var m := Exec(num, Flush(st.stack, st.postfix).value, st.queue);
                  m.Ok? && |m.value.stack| == 1 && m.value.next == |st.queue|)
  {
    var st := ScanFrom(num, ctx, s, 0, Initial(), fuel).value;
    InitialInv<V>();
    ScanKeepsInv(num, ctx, s, 0, Initial(), fuel);
    FinishAtLevelZero(num, st);
  }

  /** A scan that ends with braces open is refused. */
  lemma UnbalancedIsRefused<V>(num: Numerics<V>, ctx: Context<V>, s: string, fuel: nat)
    requires !IsBlank(s) && ScanFrom(num, ctx, s, 0, Initial(), fuel).Ok?
    requires ScanFrom(num, ctx, s, 0, Initial(), fuel).value.lvl != 0
    ensures Evaluate(num, ctx, s, fuel) == Err(Syntax(UnbalancedBraces))
  {
  }

  /** A call with a matching ')' and fuel left evaluates the argument
      texts between its stops, with one unit of fuel less; the first failing
      argument aborts the call, otherwise solveFormula gets the values in
      order, and its failure is the call's. */
  lemma CallEvaluatesArguments<V>(num: Numerics<V>, ctx: Context<V>, name: string, s: string, j: nat, fuel: nat)
    requires j < |s| && s[j] == '(' && CallScan(s, j).Some? && fuel > 0
    ensures var stops := CallScan(s, j).value;
            var args := EvalArgs(num, ctx, Arguments(s, stops), fuel - 1);
            var r := CallOperand(num, ctx, name, s, j, fuel);
            && (args.Err? ==> r == Err(args.error))
            && (args.Ok? ==>
                  var v := SolveFormula(num, ctx, name, args.value, fuel - 1);
                  && (v.Err? ==> r == Err(v.error))
                  && (v.Ok? ==> r == Ok((v.value, stops[|stops| - 1] + 1))))
  {
  }

  /** After setVariable binds a well-formed name, evaluating the name alone
      answers the bound value. */
  lemma BindThenEvaluate<V>(num: Numerics<V>, ctx: Context<V>, name: string, v: V, fuel: nat)
    requires SetVariable(ctx, name, v).0
    ensures Evaluate(num, SetVariable(ctx, name, v).1, name, fuel) == Ok(v)
  {
    var ctx' := SetVariable(ctx, name, v).1;
    IdentifierScansWhole(name);
    assert !IsBlank(name) by {
      assert name[0] > ' ';
    }
    assert Classify(name[0]) == NameC;
    assert name[0..|name|] == name;
    var st := PushOperand(Initial<V>(), v);
    assert Token(num, ctx', name, 0, Initial(), fuel) == Ok((st, |name|));
    assert ScanFrom(num, ctx', name, 0, Initial(), fuel) == Ok(st);
    assert st.stack == [Opening(Round)] && st.postfix == [Operand] && st.queue == [v];
    assert Flush(st.stack, st.postfix) == Ok([Operand]);
    assert Run(num, Machine([], 0), [Operand], [v]) == Ok(Machine([v], 1));
  }

  /** A well-formed name that is not bound, and not followed by '(', is an
      undefined variable. */
  lemma UnboundName<V>(num: Numerics<V>, ctx: Context<V>, name: string, fuel: nat)
    requires IsIdentifier(name) && name !in ctx.vars
    ensures Evaluate(num, ctx, name, fuel) == Err(Undefined(Variable))
  {
    IdentifierScansWhole(name);
    assert !IsBlank(name) by {
      assert name[0] > ' ';
    }
    assert Classify(name[0]) == NameC;
    assert name[0..|name|] == name;
    assert Token(num, ctx, name, 0, Initial(), fuel) == Err(Undefined(Variable));
  }

  /** A user formula stored under a built-in's key is never used: the
      built-in answers whatever the formula registry holds. */
  lemma BuiltinShadows<V>(num: Numerics<V>, ctx: Context<V>, name: string, template: string, params: seq<V>, fuel: nat)
    requires BuiltinOf(FormulaId(name, |params|)).Some?
    ensures var b := BuiltinOf(FormulaId(name, |params|)).value;
            && Arity(b) == |params|
            && SolveFormula(num, AddFormula(ctx, name, |params|, template).1, name, params, fuel)
               == Ok(ApplyBuiltin(num, b, params))
  {
    var b := BuiltinOf(FormulaId(name, |params|)).value;
    BuiltinArity(name, |params|, b);
  }

  /** A formula defined with addFormula, under a key no built-in uses, is
      solved by substituting the printed arguments into its template and
      evaluating the result. */
  lemma DefinedFormulaIsUsed<V>(num: Numerics<V>, ctx: Context<V>, name: string, template: string, params: seq<V>, fuel: nat)
    requires IsIdentifier(name) && BuiltinOf(FormulaId(name, |params|)).None?
    ensures var ctx' := AddFormula(ctx, name, |params|, template).1;
            SolveFormula(num, ctx', name, params, fuel)
            == Evaluate(num, ctx', Substitute(template, Shown(num, params)), fuel)
  {
  }

  /** A formula whose template is literal text and argument placeholders
      is evaluated with each argument's printed value, in parentheses, in
      place of its placeholder, and its literal text as written. */
  lemma FormulaFillsArguments<V>(num: Numerics<V>, ctx: Context<V>, name: string, parts: seq<Part>, params: seq<V>, fuel: nat)
    requires IsIdentifier(name) && BuiltinOf(FormulaId(name, |params|)).None?
    requires WellFormed(parts)
    requires forall k :: 0 <= k < |params| ==> '|' !in num.show(params[k])
    ensures var ctx' := AddFormula(ctx, name, |params|, Render(parts)).1;
            SolveFormula(num, ctx', name, params, fuel) == Evaluate(num, ctx', Fill(parts, Shown(num, params)), fuel)
  {
    DefinedFormulaIsUsed(num, ctx, name, Render(parts), params, fuel);
    SubstituteFills(parts, Shown(num, params));
  }

  /** What the formula body is evaluated as: when no printed argument
      contains '|', none of the argument placeholders survives the
      substitution; a body without placeholders is evaluated as written. */
  lemma SubstitutedBody<V>(num: Numerics<V>, template: string, params: seq<V>)
    ensures (forall k :: 0 <= k < |params| ==> '|' !in num.show(params[k])) ==>
              forall k :: 0 <= k < |params| ==> !Occurs(Substitute(template, Shown(num, params)), Placeholder(k))
    ensures (forall k :: 0 <= k < |params| ==> !Occurs(template, Placeholder(k))) ==>
              Substitute(template, Shown(num, params)) == template
  {
    var texts := Shown(num, params);
    if forall k :: 0 <= k < |params| ==> '|' !in num.show(params[k]) {
      SubstituteClears(template, texts);
    }
    if forall k :: 0 <= k < |params| ==> !Occurs(template, Placeholder(k)) {
      SubstituteAbsent(template, texts);
    }
  }
}

=== FILE: registry.dfy ===
/** The evaluator's session state: the variable store and the formula
    registry, with the two operations that write them
    (src/main/java/io/colocasian/math/Expression.java, setVariable and
    addFormula). */
module Registry {
  import opened Lexer
  import Decimal

  /** Bound variables, and formula templates keyed by FormulaId(name, arity). */
  datatype Context<V> = Context(vars: map<string, V>, funs: map<string, string>)

  function Empty<V>(): Context<V> {
    Context(map[], map[])
  }

  /** The key of a formula: its name, '#', and the decimal text of its arity. */
  function FormulaId(name: string, arity: int): string {
    name + "#" + Decimal.IntToString(arity)
  }

  /** Key k has the same entry, or the same absence, in both maps. */
  ghost predicate SameEntry<K, T>(m: map<K, T>, m': map<K, T>, k: K) {
    (k in m <==> k in m') && (k in m ==> m[k] == m'[k])
  }

  /** The '#' after the name is the last '#' of a key. */
  lemma LastSeparator(name: string, arity: int)
    ensures FormulaId(name, arity)[|name|] == '#'
    ensures forall k :: |name| < k < |FormulaId(name, arity)| ==> FormulaId(name, arity)[k] != '#'
  {
    var d := Decimal.IntToString(arity);
    Decimal.NoSeparators(arity);
    forall k | |name| < k < |FormulaId(name, arity)|
      ensures FormulaId(name, arity)[k] != '#'
    {
      assert FormulaId(name, arity)[k] == d[k - |name| - 1];
    }
  }

  /** Distinct (name, arity) pairs have distinct keys, whatever the names. */
  lemma FormulaIdInjective(n1: string, a1: int, n2: string, a2: int)
    requires FormulaId(n1, a1) == FormulaId(n2, a2)
    ensures n1 == n2 && a1 == a2
  {
    var x := FormulaId(n1, a1);
    LastSeparator(n1, a1);
    LastSeparator(n2, a2);
    assert |n1| == |n2|;
    assert n1 == x[..|n1|] == n2;
    assert Decimal.IntToString(a1) == x[|n1| + 1..] == Decimal.IntToString(a2);
    Decimal.Injective(a1, a2);
  }

  /** setVariable: binds name to v when the name is a well-formed
      identifier; otherwise reports false and changes nothing. */
  function SetVariable<V>(ctx: Context<V>, name: string, v: V): (r: (bool, Context<V>))
    ensures r.0 <==> IsIdentifier(name)
    ensures !r.0 ==> r.1 == ctx
    ensures r.0 ==> r.1.funs == ctx.funs && name in r.1.vars && r.1.vars[name] == v
    ensures r.0 ==> forall k :: k != name ==> SameEntry(ctx.vars, r.1.vars, k)
  {
    if !NameCheck(name) then (false, ctx)
    else (true, ctx.(vars := ctx.vars[name := v]))
  }

  /** addFormula: stores the template under the key of (name, arity) when
      the name is a well-formed identifier; neither the arity nor the
      template is checked.  Otherwise reports false and changes nothing. */
  function AddFormula<V>(ctx: Context<V>, name: string, arity: int, template: string): (r: (bool, Context<V>))
    ensures r.0 <==> IsIdentifier(name)
    ensures !r.0 ==> r.1 == ctx
    ensures r.0 ==> r.1.vars == ctx.vars && FormulaId(name, arity) in r.1.funs
    ensures r.0 ==> r.1.funs[FormulaId(name, arity)] == template
    ensures r.0 ==> forall k :: k != FormulaId(name, arity) ==> SameEntry(ctx.funs, r.1.funs, k)
  {
    if !NameCheck(name) then (false, ctx)
    else (true, ctx.(funs := ctx.funs[FormulaId(name, arity) := template]))
  }

  /** Overloading by arity: defining (name, a) leaves the definition of
      (name, a') for every other arity a' as it was. */
  lemma OverloadKeepsOtherArities<V>(ctx: Context<V>, name: string, a: int, template: string, a': int)
    requires a != a'
    ensures SameEntry(ctx.funs, AddFormula(ctx, name, a, template).1.funs, FormulaId(name, a'))
  {
    if FormulaId(name, a') == FormulaId(name, a) {
      FormulaIdInjective(name, a', name, a);
    }
  }

  /** Binding the same name to the same value twice is the same as once. */
  lemma SetVariableIdempotent<V>(ctx: Context<V>, name: string, v: V)
    ensures var once := SetVariable(ctx, name, v);
            SetVariable(once.1, name, v) == once
  {
    var once := SetVariable(ctx, name, v);
    if once.0 {
      assert once.1.vars[name := v] == once.1.vars;
    }
  }

  /** Defining the same formula twice is the same as once. */
  lemma AddFormulaIdempotent<V>(ctx: Context<V>, name: string, arity: int, template: string)
    ensures var once := AddFormula(ctx, name, arity, template);
            AddFormula(once.1, name, arity, template) == once
  {
    var once := AddFormula(ctx, name, arity, template);
    if once.0 {
      assert once.1.funs[FormulaId(name, arity) := template] == once.1.funs;
    }
  }
}

=== FILE: shunting.dfy ===
/** The shunting-yard half of evaluate
    (src/main/java/io/colocasian/math/Expression.java:207-411): the five
    expectation flags, the operator/brace stack seeded with a '(' sentinel,
    and the postfix stream and operand queue it fills, with the invariant
    that every reachable state keeps. */
module Shunting {
  import opened Outcomes
  import opened Lexer
  import opened Numbers
  import opened Postfix

  datatype Brace = Round | Square | Curly

  /** An entry of the operator/brace stack: an opening brace, or an operator
      waiting for its right operand. */
  datatype Slot = Opening(brace: Brace) | Pending(op: Op)

  /** The five expectation flags, in the source's order: a number, variable
      or call (nxtNum); a prefix sign (nxt1op); a binary operator (nxt2op);
      an opening brace (nxtBro); a closing brace (nxtBrc). */
  datatype Flags = Flags(operand: bool, prefix: bool, binary: bool, open: bool, close: bool)

  /** At the start of the input and right after an opening brace. */
  const GroupStart := Flags(true, true, false, true, false)

  /** Right after an operator, binary or prefix. */
  const AfterOperator := Flags(true, false, false, true, false)

  /** Right after a number, variable, call or closing brace, at depth lvl. */
  function AfterOperand(lvl: int): Flags {
    Flags(false, false, true, false, lvl > 0)
  }

  /** The state of the scan: flags, brace depth, operator/brace stack (top
      last), the postfix stream emitted so far and the operand queue. */
  datatype Scan<V> = Scan(flags: Flags, lvl: int, stack: seq<Slot>, postfix: seq<Emit>, queue: seq<V>)

  function Initial<V>(): Scan<V> {
    Scan(GroupStart, 0, [Opening(Round)], [], [])
  }

  /** The operator characters. */
  datatype Sym = Plus | Minus | Star | Slash | Caret

  /** How the scan treats one character, in the order the source tests them. */
  datatype CharClass = OpenC(open: Brace) | CloseC(close: Brace) | NumC | NameC | OpC(sym: Sym) | Space | Stray

  function Classify(c: char): (k: CharClass)
    ensures k == NumC <==> IsNum(c)
    ensures k == NameC <==> IsVar(c)
    ensures k == Space <==> c == ' '
  {
    if c == '(' then OpenC(Round)
    else if c == '[' then OpenC(Square)
    else if c == '{' then OpenC(Curly)
    else if c == ')' then CloseC(Round)
    else if c == ']' then CloseC(Square)
    else if c == '}' then CloseC(Curly)
    else if IsNum(c) then NumC
    else if IsVar(c) then NameC
    else if c == '+' then OpC(Plus)
    else if c == '-' then OpC(Minus)
    else if c == '*' then OpC(Star)
    else if c == '/' then OpC(Slash)
    else if c == '^' then OpC(Caret)
    else if c == ' ' then Space
    else Stray
  }

  /** The expectation table: which character classes the flags let through. */
  predicate Admits(f: Flags, k: CharClass) {
    match k
    case OpenC(_) => f.open
    case CloseC(_) => f.close
    case NumC => f.operand
    case NameC => f.operand
    case OpC(Plus) => f.binary || f.prefix
    case OpC(Minus) => f.binary || f.prefix
    case OpC(_) => f.binary
    case Space => true
    case Stray => false
  }

  /** The syntax error raised for a character class the flags refuse. */
  function Rejection(k: CharClass): SyntaxKind {
    match k
    case OpenC(_) => UnexpectedOpening
    case CloseC(_) => UnexpectedClosing
    case NumC => UnexpectedNumber
    case NameC => UnexpectedName
    case OpC(Plus) => UnexpectedOperator
    case OpC(Minus) => UnexpectedOperator
    case OpC(_) => UnexpectedBinary
    case Space => UnexpectedCharacter
    case Stray => UnexpectedCharacter
  }

  /** Which pending operators a popping loop takes off the stack. */
  datatype Rule =
    | Everything    // a closing brace, and binary '+' and '-'
    | ProductLevel  // '*' and '/': everything but '+' and '-'
    | PowerOnly     // a prefix '-': only '^'

  predicate Yields(rule: Rule, op: Op) {
    match rule
    case Everything => true
    case ProductLevel => op != Binary(Add) && op != Binary(Sub)
    case PowerOnly => op == Binary(Pow)
  }

  /** The operators of a stack slice in the order popping emits them (top
      first); braces emit nothing. */
  function Drain(s: seq<Slot>): seq<Emit>
    decreases |s|
  {
    if s == [] then []
    else
      var top := s[|s| - 1];
      (if top.Pending? then [Apply(top.op)] else []) + Drain(s[..|s| - 1])
  }

  /** Draining one more slot on top emits that slot's operator first. */
  lemma DrainSnoc(s: seq<Slot>, x: Slot)
    ensures Drain(s + [x]) == (if x.Pending? then [Apply(x.op)] else []) + Drain(s)
  {
    assert (s + [x])[..|s|] == s;
  }

  /** The popping loop: moves pending operators that yield under the rule
      from the top of the stack to the output, and stops at a brace, at an
      operator that does not yield, or at the bottom of the stack. */
  function Unwind(stack: seq<Slot>, out: seq<Emit>, rule: Rule): (r: (seq<Slot>, seq<Emit>))
    ensures |r.0| <= |stack|
    decreases |stack|
  {
    if |stack| > 0 && stack[|stack| - 1].Pending? && Yields(rule, stack[|stack| - 1].op) then
      Unwind(stack[..|stack| - 1], out + [Apply(stack[|stack| - 1].op)], rule)
    else
      (stack, out)
  }

  /** The loop only pops: what is left is a prefix of the stack. */
  lemma {:induction false} UnwindPrefix(stack: seq<Slot>, out: seq<Emit>, rule: Rule)
    ensures var r := Unwind(stack, out, rule);
            r.0 == stack[..|r.0|]
    decreases |stack|
  {
    if |stack| > 0 && stack[|stack| - 1].Pending? && Yields(rule, stack[|stack| - 1].op) {
      var rest := stack[..|stack| - 1];
      UnwindPrefix(rest, out + [Apply(stack[|stack| - 1].op)], rule);
      var k := |Unwind(stack, out, rule).0|;
      assert rest[..k] == stack[..k];
    }
  }

  /** Every popped slot is an operator that yields under the rule, and the
      loop stops below one that does not (or at the bottom). */
  lemma {:induction false} UnwindPops(stack: seq<Slot>, out: seq<Emit>, rule: Rule)
    ensures var r := Unwind(stack, out, rule);
            forall k :: |r.0| <= k < |stack| ==> stack[k].Pending? && Yields(rule, stack[k].op)
    ensures var r := Unwind(stack, out, rule);
            |r.0| == 0 || !(r.0[|r.0| - 1].Pending? && Yields(rule, r.0[|r.0| - 1].op))
    decreases |stack|
  {
    if |stack| > 0 && stack[|stack| - 1].Pending? && Yields(rule, stack[|stack| - 1].op) {
      var rest := stack[..|stack| - 1];
      UnwindPops(rest, out + [Apply(stack[|stack| - 1].op)], rule);
      var k := |Unwind(stack, out, rule).0|;
      forall x | k <= x < |stack|
        ensures stack[x].Pending? && Yields(rule, stack[x].op)
      {
        if x < |stack| - 1 {
          assert stack[x] == rest[x];
        }
      }
    }
  }

  /** Popping the top operator first and then the slice below it down to
      k emits what draining the slice from k emits. */
  lemma PopOne(stack: seq<Slot>, out: seq<Emit>, k: nat)
    requires 0 < |stack| && k < |stack| && stack[|stack| - 1].Pending?
    ensures (out + [Apply(stack[|stack| - 1].op)]) + Drain(stack[..|stack| - 1][k..]) == out + Drain(stack[k..])
  {
    var rest := stack[..|stack| - 1];
    var top := stack[|stack| - 1];
    assert stack[k..] == rest[k..] + [top];
    DrainSnoc(rest[k..], top);
  }

  /** The popped operators are emitted in popping order, top first. */
  lemma {:induction false} UnwindEmits(stack: seq<Slot>, out: seq<Emit>, rule: Rule)
    ensures var r := Unwind(stack, out, rule);
            r.1 == out + Drain(stack[|r.0|..])
    decreases |stack|
  {
    var n := |stack|;
    if n > 0 && stack[n - 1].Pending? && Yields(rule, stack[n - 1].op) {
      var rest := stack[..n - 1];
      var top := stack[n - 1];
      UnwindEmits(rest, out + [Apply(top.op)], rule);
      PopOne(stack, out, |Unwind(stack, out, rule).0|);
    } else {
      assert stack[n..] == [];
    }
  }

  /** An opening brace: pushed, one level deeper, a new group starts. */
  function OpenBrace<V>(st: Scan<V>, b: Brace): (r: Result<Scan<V>>)
    ensures !st.flags.open ==> r == Err(Syntax(UnexpectedOpening))
    ensures st.flags.open ==> r.Ok? && r.value.lvl == st.lvl + 1 && r.value.flags == GroupStart
    ensures r.Ok? ==> r.value.stack == st.stack + [Opening(b)] && r.value.postfix == st.postfix && r.value.queue == st.queue
  {
    if !st.flags.open then Err(Syntax(UnexpectedOpening))
    else Ok(Scan(GroupStart, st.lvl + 1, st.stack + [Opening(b)], st.postfix, st.queue))
  }

  /** A closing brace: pops every operator down to the nearest brace, which
      must be an opening brace of the same type and is dropped. */
  function CloseBrace<V>(st: Scan<V>, b: Brace): (r: Result<Scan<V>>)
    ensures !st.flags.close ==> r == Err(Syntax(UnexpectedClosing))
    ensures r.Ok? ==> r.value.lvl == st.lvl - 1 && r.value.flags == AfterOperand(st.lvl - 1)
    ensures r.Ok? ==> r.value.queue == st.queue
    ensures r.Ok? ==>
              var u := Unwind(st.stack, st.postfix, Everything);
              && |u.0| > 0 && u.0[|u.0| - 1] == Opening(b)
              && r.value.stack == u.0[..|u.0| - 1] && r.value.postfix == u.1
    ensures st.flags.close && r.Err? ==>
              var u := Unwind(st.stack, st.postfix, Everything);
              if |u.0| == 0 then r.error == EmptyStack
              else r.error == Syntax(BracketMismatch) && u.0[|u.0| - 1] != Opening(b)
  {
    if !st.flags.close then Err(Syntax(UnexpectedClosing))
    else
      var (stack, out) := Unwind(st.stack, st.postfix, Everything);
      if |stack| == 0 then Err(EmptyStack)
      else if stack[|stack| - 1] != Opening(b) then Err(Syntax(BracketMismatch))
      else
        var lvl := st.lvl - 1;
        Ok(Scan(AfterOperand(lvl), lvl, stack[..|stack| - 1], out, st.queue))
  }

  /** The rule takes slot x: a pending operator that yields under it. */
  predicate Takes(rule: Rule, x: Slot) {
    x.Pending? && Yields(rule, x.op)
  }

  /** Pops under the rule, then pushes op.  The popping loop removes a run
      of slots the rule takes from the top and appends their operators to
      the postfix stream, top first; it stops below a slot the rule does not
      take, on which op is pushed.  The source peeks at the stack while
      popping, so when the rule takes every slot the stack runs empty and
      the peek fails. */
  function PopThenPush<V>(st: Scan<V>, rule: Rule, op: Op): (r: Result<Scan<V>>)
    ensures r.Err? <==> forall k :: 0 <= k < |st.stack| ==> Takes(rule, st.stack[k])
    ensures r.Err? ==> r.error == EmptyStack
    ensures r.Ok? ==>
              var n := |r.value.stack| - 1;
              && 0 < n <= |st.stack|
              && r.value.stack == st.stack[..n] + [Pending(op)]
              && !Takes(rule, st.stack[n - 1])
              && (forall k :: n <= k < |st.stack| ==> Takes(rule, st.stack[k]))
              && r.value.postfix == st.postfix + Drain(st.stack[n..])
    ensures r.Ok? ==> r.value.flags == AfterOperator && r.value.lvl == st.lvl && r.value.queue == st.queue
  {
    var (stack, out) := Unwind(st.stack, st.postfix, rule);
    UnwindPrefix(st.stack, st.postfix, rule);
    UnwindPops(st.stack, st.postfix, rule);
    UnwindEmits(st.stack, st.postfix, rule);
    if |stack| == 0 then Err(EmptyStack)
    else Ok(Scan(AfterOperator, st.lvl, stack + [Pending(op)], out, st.queue))
  }

  /** Which operators each popping rule takes: a closing brace and binary
      '+' and '-' take all of them, '*' and '/' all but '+' and '-', a
      prefix '-' only '^'. */
  lemma PopRules(op: Op)
    ensures Yields(Everything, op)
    ensures Yields(ProductLevel, op) <==> op in {Binary(Pow), Negate, Binary(Mul), Binary(Div)}
    ensures Yields(PowerOnly, op) <==> op == Binary(Pow)
  {
    match op
    case Negate =>
    case Binary(b) =>
      assert b == Pow || b == Mul || b == Div || b == Add || b == Sub;
  }

  /** An operator character. */
  function Operator<V>(st: Scan<V>, sym: Sym): (r: Result<Scan<V>>)
    ensures !Admits(st.flags, OpC(sym)) ==> r == Err(Syntax(Rejection(OpC(sym))))
    ensures r.Ok? ==> r.value.flags == AfterOperator && r.value.lvl == st.lvl && r.value.queue == st.queue
    ensures sym == Caret && r.Ok? ==> r.value.stack == st.stack + [Pending(Binary(Pow))] && r.value.postfix == st.postfix
    ensures sym == Plus && !st.flags.binary && r.Ok? ==> r.value.stack == st.stack && r.value.postfix == st.postfix
    ensures st.flags.binary && sym == Star ==> r == PopThenPush(st, ProductLevel, Binary(Mul))
    ensures st.flags.binary && sym == Slash ==> r == PopThenPush(st, ProductLevel, Binary(Div))
    ensures st.flags.binary && sym == Plus ==> r == PopThenPush(st, Everything, Binary(Add))
    ensures st.flags.binary && sym == Minus ==> r == PopThenPush(st, Everything, Binary(Sub))
    ensures !st.flags.binary && st.flags.prefix && sym == Minus ==> r == PopThenPush(st, PowerOnly, Negate)
  {
    match sym
    case Caret =>
      if !st.flags.binary then Err(Syntax(UnexpectedBinary))
      else Ok(Scan(AfterOperator, st.lvl, st.stack + [Pending(Binary(Pow))], st.postfix, st.queue))
    case Star =>
      if !st.flags.binary then Err(Syntax(UnexpectedBinary))
      else PopThenPush(st, ProductLevel, Binary(Mul))
    case Slash =>
      if !st.flags.binary then Err(Syntax(UnexpectedBinary))
      else PopThenPush(st, ProductLevel, Binary(Div))
    case Plus =>
      if st.flags.binary then PopThenPush(st, Everything, Binary(Add))
      else if !st.flags.prefix then Err(Syntax(UnexpectedOperator))
      else Ok(st.(flags := AfterOperator))
    case Minus =>
      if st.flags.binary then PopThenPush(st, Everything, Binary(Sub))
      else if !st.flags.prefix then Err(Syntax(UnexpectedOperator))
      else PopThenPush(st, PowerOnly, Negate)
  }

  /** A number, variable or call result: one operand marker and one queued
      value. */
  function PushOperand<V>(st: Scan<V>, v: V): (r: Scan<V>)
    ensures r.postfix == st.postfix + [Operand] && r.queue == st.queue + [v]
    ensures r.stack == st.stack && r.lvl == st.lvl && r.flags == AfterOperand(st.lvl)
    ensures forall k :: Admits(r.flags, k) <==> k.OpC? || (k.CloseC? && st.lvl > 0) || k == Space
  {
    Scan(AfterOperand(st.lvl), st.lvl, st.stack, st.postfix + [Operand], st.queue + [v])
  }

  /** The end-of-input loop: pops down to the nearest '('.  Other braces it
      meets are popped without effect on the result, since the machine skips
      them. */
  function Flush(stack: seq<Slot>, out: seq<Emit>): (r: Result<seq<Emit>>)
    ensures r.Err? <==> Opening(Round) !in stack
    ensures r.Err? ==> r.error == EmptyStack
    decreases |stack|
  {
    if |stack| == 0 then Err(EmptyStack)
    else
      var top := stack[|stack| - 1];
      if top == Opening(Round) then Ok(out)
      else
        assert stack == stack[..|stack| - 1] + [top];
        Flush(stack[..|stack| - 1], out + (if top.Pending? then [Apply(top.op)] else []))
  }

  /** Above the sentinel, a stack of pending operators is flushed as
      popping would drain it: top first. */
  lemma {:induction false} FlushDrains(stack: seq<Slot>, out: seq<Emit>)
    requires |stack| >= 1 && stack[0] == Opening(Round)
    requires forall k :: 1 <= k < |stack| ==> stack[k].Pending?
    ensures Flush(stack, out) == Ok(out + Drain(stack[1..]))
    decreases |stack|
  {
    var n := |stack|;
    if n == 1 {
      assert stack[1..] == [] && Drain(stack[1..]) == [];
      assert out + [] == out;
    } else {
      var top := stack[n - 1];
      assert top.Pending?;
      assert top != Opening(Round);
      assert Flush(stack, out) == Flush(stack[..n - 1], out + [Apply(top.op)]);
      FlushDrains(stack[..n - 1], out + [Apply(top.op)]);
      var above := stack[1..];
      assert above[..|above| - 1] == stack[..n - 1][1..];
      assert above[|above| - 1] == top;
      assert Drain(above) == [Apply(top.op)] + Drain(stack[..n - 1][1..]);
      assert (out + [Apply(top.op)]) + Drain(stack[..n - 1][1..]) == out + Drain(above);
    }
  }

  /** The end of the scan: braces must balance, then the stack is flushed
      and the postfix stream run. */
  function Finish<V>(num: Numerics<V>, st: Scan<V>): (r: Result<V>)
    ensures st.lvl != 0 ==> r == Err(Syntax(UnbalancedBraces))
  {
    if st.lvl != 0 then Err(Syntax(UnbalancedBraces))
    else
      var out :- Flush(st.stack, st.postfix);
      SolvePostfix(num, out, st.queue)
  }
}

=== FILE: templates.dfy ===
/** Placeholder substitution in user formula templates
    (src/main/java/io/colocasian/math/Expression.java:111-116): each "|i|"
    for i below the number of arguments is replaced, in order of i, by the
    argument's text in parentheses, using String.replace semantics. */
module Templates {
  import Decimal

  /** pat occurs in s at position p. */
  predicate At(s: string, pat: string, p: nat) {
    p + |pat| <= |s| && s[p..p + |pat|] == pat
  }

  ghost predicate Occurs(s: string, pat: string) {
    exists p: nat :: At(s, pat, p)
  }

  /** String.replace: every occurrence of pat, found left to right without
      overlap, replaced by rep. */
  function ReplaceAll(s: string, pat: string, rep: string): (r: string)
    requires |pat| > 0
    decreases |s|
  {
    if |s| < |pat| then s
    else if s[..|pat|] == pat then rep + ReplaceAll(s[|pat|..], pat, rep)
    else [s[0]] + ReplaceAll(s[1..], pat, rep)
  }

  /** Text without the pattern is left as it is. */
  lemma {:induction false} ReplaceAbsent(s: string, pat: string, rep: string)
    requires |pat| > 0 && !Occurs(s, pat)
    ensures ReplaceAll(s, pat, rep) == s
    decreases |s|
  {
    if |s| >= |pat| {
      assert !At(s, pat, 0);
      assert !Occurs(s[1..], pat) by {
        forall p: nat | At(s[1..], pat, p)
          ensures At(s, pat, p + 1)
        {
          assert s[1..][p..p + |pat|] == s[p + 1..p + 1 + |pat|];
        }
      }
      ReplaceAbsent(s[1..], pat, rep);
      assert s == [s[0]] + s[1..];
    }
  }

  /** If the result of a replacement starts with w, and w avoids the first
      character of the replacement text, the input started with w too. */
  lemma {:induction false} PrefixSurvives(t: string, pat: string, rep: string, w: string)
    requires |pat| > 0 && |rep| > 0 && rep[0] !in w
    requires |w| <= |ReplaceAll(t, pat, rep)| && ReplaceAll(t, pat, rep)[..|w|] == w
    ensures |w| <= |t| && t[..|w|] == w
    decreases |t|
  {
    if |w| > 0 && |t| >= |pat| {
      var r := ReplaceAll(t, pat, rep);
      assert r[0] == w[0] && w[0] in w;
      if t[..|pat|] != pat {
        var r' := ReplaceAll(t[1..], pat, rep);
        assert ReplaceAll(t, pat, rep) == [t[0]] + r';
        assert r'[..|w| - 1] == w[1..];
        PrefixSurvives(t[1..], pat, rep, w[1..]);
        assert t[..|w|] == [t[0]] + t[1..][..|w| - 1];
      }
    }
  }

  lemma ShiftAt(s: string, d: nat, q: string, p: nat)
    requires d <= |s| && At(s[d..], q, p)
    ensures At(s, q, p + d)
  {
    assert s[d..][p..p + |q|] == s[p + d..p + d + |q|];
  }

  lemma SuffixAbsent(s: string, d: nat, q: string)
    requires d <= |s| && !Occurs(s, q)
    ensures !Occurs(s[d..], q)
  {
    forall p: nat | At(s[d..], q, p)
      ensures At(s, q, p + d)
    {
      ShiftAt(s, d, q, p);
    }
  }

  lemma DropAt(x: string, t: string, q: string, p: nat)
    requires At(x + t, q, p) && p >= |x|
    ensures At(t, q, p - |x|)
  {
    assert (x + t)[p..p + |q|] == t[p - |x|..p - |x| + |q|];
  }

  /** A replacement text without '|' creates no occurrence of a pattern
      that starts with '|': after ReplaceAll, q is absent if it was absent
      before or if it is the replaced pattern itself. */
  lemma {:induction false} NoOccurrenceAfter(s: string, pat: string, rep: string, q: string)
    requires |pat| > 0 && |rep| > 0 && |q| > 0
    requires q[0] == '|' && '|' !in rep && rep[0] !in q[1..]
    requires q == pat || !Occurs(s, q)
    ensures !Occurs(ReplaceAll(s, pat, rep), q)
    decreases |s|
  {
    var r := ReplaceAll(s, pat, rep);
    if |s| < |pat| {
      if q == pat {
        assert forall p: nat :: !At(r, q, p);
      }
    } else if s[..|pat|] == pat {
      var r' := ReplaceAll(s[|pat|..], pat, rep);
      assert r == rep + r';
      if q != pat {
        SuffixAbsent(s, |pat|, q);
      }
      forall p: nat | p < |rep|
        ensures !At(r, q, p)
      {
        assert r[p] == rep[p];
      }
      forall p: nat | p >= |rep| && At(r, q, p)
        ensures At(r', q, p - |rep|)
      {
        DropAt(rep, r', q, p);
      }
      NoOccurrenceAfter(s[|pat|..], pat, rep, q);
    } else {
      var r' := ReplaceAll(s[1..], pat, rep);
      assert r == [s[0]] + r';
      if q != pat {
        SuffixAbsent(s, 1, q);
      }
      if At(r, q, 0) {
        StartAt(s, pat, rep, q);
      }
      forall p: nat | p >= 1 && At(r, q, p)
        ensures At(r', q, p - 1)
      {
        DropAt([s[0]], r', q, p);
      }
      NoOccurrenceAfter(s[1..], pat, rep, q);
    }
  }

  /** Where the front pattern does not match, ReplaceAll copies the first
      character. */
  lemma ReplaceCopies(s: string, pat: string, rep: string)
    requires |pat| > 0 && |s| >= |pat| && s[..|pat|] != pat
    ensures ReplaceAll(s, pat, rep) == [s[0]] + ReplaceAll(s[1..], pat, rep)
  {
  }

  lemma ConsAt(c: char, t: string, q: string)
    requires |q| > 0 && At([c] + t, q, 0)
    ensures c == q[0] && |q| - 1 <= |t| && t[..|q| - 1] == q[1..]
  {
    assert ([c] + t)[..|q|][1..] == t[..|q| - 1];
  }

  lemma AtFromTail(s: string, q: string)
    requires |q| > 0 && |s| > 0 && s[0] == q[0]
    requires |q| - 1 <= |s| - 1 && s[1..][..|q| - 1] == q[1..]
    ensures At(s, q, 0)
  {
    assert s[..|q|] == [s[0]] + s[1..][..|q| - 1];
  }

  /** An occurrence of q at the front of the result, where the front
      character was copied, was already at the front of the input. */
  lemma StartAt(s: string, pat: string, rep: string, q: string)
    requires |pat| > 0 && |rep| > 0 && |q| > 0 && rep[0] !in q[1..]
    requires |s| >= |pat| && s[..|pat|] != pat
    requires At(ReplaceAll(s, pat, rep), q, 0)
    ensures At(s, q, 0)
  {
    ReplaceCopies(s, pat, rep);
    ConsAt(s[0], ReplaceAll(s[1..], pat, rep), q);
    PrefixSurvives(s[1..], pat, rep, q[1..]);
    AtFromTail(s, q);
  }

  /** One turn of the replace loop where pat does not start: the first
      character is copied. */
  lemma CopiesFirst(s: string, pat: string, rep: string)
    requires |pat| > 0 && |s| > 0 && !At(s, pat, 0)
    ensures ReplaceAll(s, pat, rep) == [s[0]] + ReplaceAll(s[1..], pat, rep)
  {
    if |s| >= |pat| {
      assert s[0..|pat|] == s[..|pat|];
    }
  }

  /** A text in which the first character of pat appears nowhere pat could
      fit has no occurrence of pat. */
  lemma AbsentWithoutStart(u: string, pat: string)
    requires |pat| > 0
    requires forall p :: 0 <= p && p + |pat| <= |u| ==> u[p] != pat[0]
    ensures !Occurs(u, pat)
  {
    forall p: nat
      ensures !At(u, pat, p)
    {
      if p + |pat| <= |u| {
        assert u[p..p + |pat|][0] == u[p];
      }
    }
  }

  /** A prefix at none of whose positions pat starts is copied as it is. */
  lemma {:induction false} CopiesPrefix(a: string, z: string, pat: string, rep: string)
    requires |pat| > 0
    requires forall i :: 0 <= i < |a| ==> !At(a[i..] + z, pat, 0)
    ensures ReplaceAll(a + z, pat, rep) == a + ReplaceAll(z, pat, rep)
    decreases |a|
  {
    if |a| > 0 {
      assert a[0..] == a;
      CopiesFirst(a + z, pat, rep);
      assert (a + z)[0] == a[0] && (a + z)[1..] == a[1..] + z;
      forall i | 0 <= i < |a| - 1
        ensures !At(a[1..][i..] + z, pat, 0)
      {
        assert a[1..][i..] == a[i + 1..];
      }
      CopiesPrefix(a[1..], z, pat, rep);
      assert a == [a[0]] + a[1..];
    } else {
      assert a + z == z;
    }
  }

  /** String.replace puts rep in place of the first occurrence of pat and
      carries on after it: when pat does not start anywhere in x, nor
      straddle the end of x, x is copied, rep comes next and the rest is
      replaced in turn. */
  lemma InsertsAtFirst(x: string, y: string, pat: string, rep: string)
    requires |pat| > 0 && !Occurs(x + pat[..|pat| - 1], pat)
    ensures ReplaceAll(x + pat + y, pat, rep) == x + rep + ReplaceAll(y, pat, rep)
  {
    var u := x + pat[..|pat| - 1];
    forall i | 0 <= i < |x|
      ensures !At(x[i..] + (pat + y), pat, 0)
    {
      if At(x[i..] + (pat + y), pat, 0) {
        assert (x[i..] + (pat + y))[..|pat|] == u[i..i + |pat|];
        assert At(u, pat, i);
      }
    }
    CopiesPrefix(x, pat + y, pat, rep);
    assert (pat + y)[..|pat|] == pat && (pat + y)[|pat|..] == y;
    assert x + pat + y == x + (pat + y);
  }

  /** The placeholder for argument i. */
  function Placeholder(i: nat): string {
    "|" + Decimal.IntToString(i) + "|"
  }

  /** A placeholder is '|', decimal digits, '|': no '(' anywhere. */
  lemma PlaceholderShape(i: nat)
    ensures |Placeholder(i)| >= 3 && Placeholder(i)[0] == '|'
    ensures '(' !in Placeholder(i)
  {
    var d := Decimal.IntToString(i);
    assert forall k :: 0 <= k < |d| ==> Decimal.IsDigit(d[k]);
  }

  /** Between its two bars a placeholder holds only the digits of i. */
  lemma PlaceholderDigits(i: nat)
    ensures var q := Placeholder(i);
            && q[|q| - 1] == '|' && q[1..|q| - 1] == Decimal.IntToString(i)
            && forall x :: 1 <= x < |q| - 1 ==> Decimal.IsDigit(q[x])
  {
    var q := Placeholder(i);
    var d := Decimal.IntToString(i);
    assert q[1..|q| - 1] == d;
    forall x | 1 <= x < |q| - 1
      ensures Decimal.IsDigit(q[x])
    {
      assert q[x] == d[x - 1];
    }
  }

  /** The text an argument is put in place of its placeholder as. */
  function Wrapped(text: string): string {
    "(" + text + ")"
  }

  /** solveCustomFormula's loop from argument i on: texts[i] is the printed
      form of argument i. */
  function SubstituteFrom(template: string, texts: seq<string>, i: nat): string
    requires i <= |texts|
    decreases |texts| - i
  {
    if i == |texts| then template
    else SubstituteFrom(ReplaceAll(template, Placeholder(i), Wrapped(texts[i])), texts, i + 1)
  }

  function Substitute(template: string, texts: seq<string>): string {
    SubstituteFrom(template, texts, 0)
  }

  /** When no argument text contains '|', no placeholder of an argument is
      left in the substituted template. */
  lemma {:induction false} SubstituteFromClears(template: string, texts: seq<string>, i: nat)
    requires i <= |texts|
    requires forall k :: 0 <= k < |texts| ==> '|' !in texts[k]
    requires forall k :: 0 <= k < i ==> !Occurs(template, Placeholder(k))
    ensures forall k :: 0 <= k < |texts| ==> !Occurs(SubstituteFrom(template, texts, i), Placeholder(k))
    decreases |texts| - i
  {
    if i < |texts| {
      var rep := Wrapped(texts[i]);
      var next := ReplaceAll(template, Placeholder(i), rep);
      forall k | 0 <= k < i + 1
        ensures !Occurs(next, Placeholder(k))
      {
        PlaceholderShape(k);
        PlaceholderShape(i);
        var q := Placeholder(k);
        assert '(' !in q[1..] by {
          forall x | 1 <= x < |q|
            ensures q[x] != '('
          {
            assert q[x] in q;
          }
        }
        NoOccurrenceAfter(template, Placeholder(i), rep, q);
      }
      SubstituteFromClears(next, texts, i + 1);
    }
  }

  lemma SubstituteClears(template: string, texts: seq<string>)
    requires forall k :: 0 <= k < |texts| ==> '|' !in texts[k]
    ensures forall k :: 0 <= k < |texts| ==> !Occurs(Substitute(template, texts), Placeholder(k))
  {
    SubstituteFromClears(template, texts, 0);
  }

  /** A template that mentions none of the placeholders is evaluated as
      written. */
  lemma {:induction false} SubstituteFromAbsent(template: string, texts: seq<string>, i: nat)
    requires i <= |texts|
    requires forall k :: i <= k < |texts| ==> !Occurs(template, Placeholder(k))
    ensures SubstituteFrom(template, texts, i) == template
    decreases |texts| - i
  {
    if i < |texts| {
      PlaceholderShape(i);
      ReplaceAbsent(template, Placeholder(i), Wrapped(texts[i]));
      SubstituteFromAbsent(template, texts, i + 1);
    }
  }

  lemma SubstituteAbsent(template: string, texts: seq<string>)
    requires forall k :: 0 <= k < |texts| ==> !Occurs(template, Placeholder(k))
    ensures Substitute(template, texts) == template
  {
    SubstituteFromAbsent(template, texts, 0);
  }

  /** A template read as a sequence of parts: literal text and the
      placeholders of arguments. */
  datatype Part = Lit(text: string) | Hole(index: nat)

  function Render(parts: seq<Part>): string
    decreases |parts|
  {
    if parts == [] then ""
    else (match parts[0] case Lit(a) => a case Hole(k) => Placeholder(k)) + Render(parts[1..])
  }

  /** What solveCustomFormula evaluates: each placeholder of an argument
      becomes that argument's text in parentheses; placeholders past the
      last argument and the literal text stay as written. */
  function Fill(parts: seq<Part>, texts: seq<string>): string
    decreases |parts|
  {
    if parts == [] then ""
    else
      (match parts[0]
       case Lit(a) => a
       case Hole(k) => if k < |texts| then Wrapped(texts[k]) else Placeholder(k))
      + Fill(parts[1..], texts)
  }

  /** Literal text of a template part: non-empty (adjacent literals can
      always be joined) and without '|', so it holds no placeholder. */
  predicate Plain(a: string) {
    |a| > 0 && '|' !in a
  }

  predicate OpensWithDigit(a: string) {
    |a| > 0 && Decimal.IsDigit(a[0])
  }

  /** Every literal part is plain, and a literal right after a placeholder
      does not open with a digit: such a literal could complete, with the
      placeholder's closing bar, the placeholder of another argument. */
  predicate WellFormed(parts: seq<Part>)
    decreases |parts|
  {
    || parts == []
    || (&& (parts[0].Lit? ==> Plain(parts[0].text))
        && (parts[0].Hole? && |parts| > 1 && parts[1].Lit? ==> !OpensWithDigit(parts[1].text))
        && WellFormed(parts[1..]))
  }

  /** Every placeholder in parts is for argument i or later. */
  predicate HolesFrom(parts: seq<Part>, i: nat)
    decreases |parts|
  {
    parts == [] || ((parts[0].Hole? ==> parts[0].index >= i) && HolesFrom(parts[1..], i))
  }

  /** The placeholders of argument k turned into the literal rep. */
  function Plug(parts: seq<Part>, k: nat, rep: string): seq<Part>
    decreases |parts|
  {
    if parts == [] then []
    else [if parts[0] == Hole(k) then Lit(rep) else parts[0]] + Plug(parts[1..], k, rep)
  }

  /** What follows a placeholder in a well-formed template does not open
      with a digit. */
  lemma AfterHole(parts: seq<Part>)
    requires WellFormed(parts) && |parts| > 1 && parts[0].Hole?
    ensures !OpensWithDigit(Render(parts[1..]))
  {
    var rest := parts[1..];
    assert rest[1..] == parts[2..];
    if rest[0].Hole? {
      PlaceholderShape(rest[0].index);
    }
  }

  /** Two different placeholders: neither starts where the other does. */
  lemma PlaceholdersDiffer(j: nat, k: nat, z: string)
    requires j != k
    ensures !At(Placeholder(j) + z, Placeholder(k), 0)
  {
    var p, q := Placeholder(j), Placeholder(k);
    PlaceholderShape(j);
    PlaceholderShape(k);
    PlaceholderDigits(j);
    PlaceholderDigits(k);
    if |q| < |p| {
      assert (p + z)[|q| - 1] == p[|q| - 1] != q[|q| - 1];
    } else if |q| > |p| {
      assert (p + z)[|p| - 1] == p[|p| - 1] != q[|p| - 1];
    } else if At(p + z, q, 0) {
      assert (p + z)[..|q|] == p;
      Decimal.Injective(j, k);
    }
  }

  /** Replacing the placeholder of argument k copies the placeholder of
      another argument, when what follows it does not open with a digit. */
  lemma OtherHoleCopied(j: nat, k: nat, z: string, rep: string)
    requires j != k && !OpensWithDigit(z)
    ensures ReplaceAll(Placeholder(j) + z, Placeholder(k), rep) == Placeholder(j) + ReplaceAll(z, Placeholder(k), rep)
  {
    var p, q := Placeholder(j), Placeholder(k);
    PlaceholderShape(k);
    PlaceholderDigits(j);
    PlaceholderDigits(k);
    forall i | 0 <= i < |p|
      ensures !At(p[i..] + z, q, 0)
    {
      if i == 0 {
        assert p[i..] == p;
        PlaceholdersDiffer(j, k, z);
      } else if i < |p| - 1 {
        assert (p[i..] + z)[0] == p[i];
      } else if |z| > 0 {
        assert (p[i..] + z)[1] == z[0] != q[1];
      }
    }
    CopiesPrefix(p, z, q, rep);
  }

  /** Replacing the placeholder of argument k in a well-formed template
      plugs rep into exactly the parts that are that placeholder. */
  lemma {:induction false} ReplaceParts(parts: seq<Part>, k: nat, rep: string)
    requires WellFormed(parts)
    ensures ReplaceAll(Render(parts), Placeholder(k), rep) == Render(Plug(parts, k, rep))
    decreases |parts|
  {
    if parts != [] {
      var z := Render(parts[1..]);
      var q := Placeholder(k);
      PlaceholderShape(k);
      ReplaceParts(parts[1..], k, rep);
      match parts[0]
      case Lit(a) =>
        forall i | 0 <= i < |a|
          ensures !At(a[i..] + z, q, 0)
        {
          assert (a[i..] + z)[0] == a[i] && a[i] in a;
        }
        CopiesPrefix(a, z, q, rep);
      case Hole(j) =>
        if j == k {
          assert (q + z)[..|q|] == q && (q + z)[|q|..] == z;
        } else {
          if |parts| > 1 {
            AfterHole(parts);
          }
          OtherHoleCopied(j, k, z, rep);
        }
    }
  }

  lemma {:induction false} PlugKeeps(parts: seq<Part>, k: nat, rep: string)
    requires WellFormed(parts) && HolesFrom(parts, k) && Plain(rep) && !OpensWithDigit(rep)
    ensures WellFormed(Plug(parts, k, rep)) && HolesFrom(Plug(parts, k, rep), k + 1)
    decreases |parts|
  {
    if parts != [] {
      PlugKeeps(parts[1..], k, rep);
    }
  }

  lemma {:induction false} FillPlug(parts: seq<Part>, texts: seq<string>, k: nat)
    requires k < |texts|
    ensures Fill(Plug(parts, k, Wrapped(texts[k])), texts) == Fill(parts, texts)
    decreases |parts|
  {
    if parts != [] {
      FillPlug(parts[1..], texts, k);
    }
  }

  lemma {:induction false} FilledPastTexts(parts: seq<Part>, texts: seq<string>)
    requires HolesFrom(parts, |texts|)
    ensures Fill(parts, texts) == Render(parts)
    decreases |parts|
  {
    if parts != [] {
      FilledPastTexts(parts[1..], texts);
    }
  }

  lemma {:induction false} HolesFromZero(parts: seq<Part>)
    ensures HolesFrom(parts, 0)
    decreases |parts|
  {
    if parts != [] {
      HolesFromZero(parts[1..]);
    }
  }

  /** The loop from argument i on, over a template whose placeholders
      below i are already gone, fills in every remaining placeholder. */
  lemma {:induction false} SubstituteFromFills(parts: seq<Part>, texts: seq<string>, i: nat)
    requires i <= |texts| && WellFormed(parts) && HolesFrom(parts, i)
    requires forall k :: 0 <= k < |texts| ==> '|' !in texts[k]
    ensures SubstituteFrom(Render(parts), texts, i) == Fill(parts, texts)
    decreases |texts| - i
  {
    if i == |texts| {
      FilledPastTexts(parts, texts);
    } else {
      var rep := Wrapped(texts[i]);
      assert Plain(rep) && !OpensWithDigit(rep) by {
        assert rep == ['('] + texts[i] + [')'];
      }
      ReplaceParts(parts, i, rep);
      PlugKeeps(parts, i, rep);
      SubstituteFromFills(Plug(parts, i, rep), texts, i + 1);
      FillPlug(parts, texts, i);
    }
  }

  /** solveCustomFormula puts each argument's text, in parentheses, where
      its placeholder stood, and leaves the literal text of the template in
      place, when the texts hold no '|' and no literal right after a
      placeholder opens with a digit. */
  lemma SubstituteFills(parts: seq<Part>, texts: seq<string>)
    requires WellFormed(parts)
    requires forall k :: 0 <= k < |texts| ==> '|' !in texts[k]
    ensures Substitute(Render(parts), texts) == Fill(parts, texts)
  {
    HolesFromZero(parts);
    SubstituteFromFills(parts, texts, 0);
  }

  /** The placeholders of the first two arguments. */
  lemma FirstPlaceholders()
    ensures Placeholder(0) == "|0|" && Placeholder(1) == "|1|"
  {
    assert Decimal.IntToString(0) == "0" && Decimal.IntToString(1) == "1";
  }

  /** Replacing "|0|" in "*|0|" keeps the '*' and puts w after it. */
  lemma ReplaceAfterStar(w: string)
    ensures ReplaceAll("*|0|", "|0|", w) == "*" + w
  {
    assert "*" + "|0|"[..2] == "*|0";
    AbsentWithoutStart("*|0", "|0|");
    assert "*|0|" == "*" + "|0|" + "";
    InsertsAtFirst("*", "", "|0|", w);
    assert ReplaceAll("", "|0|", w) == "";
  }

  /** Replacing "|0|" in "|0|*|0|" puts w in both places. */
  lemma ReplaceSquare(w: string)
    ensures ReplaceAll("|0|*|0|", "|0|", w) == w + "*" + w
  {
    assert "" + "|0|"[..2] == "|0";
    AbsentWithoutStart("|0", "|0|");
    assert "|0|*|0|" == "" + "|0|" + "*|0|";
    InsertsAtFirst("", "*|0|", "|0|", w);
    ReplaceAfterStar(w);
  }


  /** "|0|*|0|" with one argument t becomes "(t)*(t)", whatever t is. */
  lemma SquareTemplate(t: string)
    ensures Substitute("|0|*|0|", [t]) == "(" + t + ")*(" + t + ")"
  {
    FirstPlaceholders();
    ReplaceSquare(Wrapped(t));
    assert Substitute("|0|*|0|", [t]) == SubstituteFrom(ReplaceAll("|0|*|0|", "|0|", Wrapped(t)), [t], 1);
  }


}
